=== FILE: README.md ===
# FamilyRecipes state model

A Dafny model of the state logic in `app.js`, the single-page recipe book. The model covers:

- the recipe list and its favourites;
- the search, category and favourites-only filter that decides which recipes are listed;
- the recipe form, which turns typed text into a stored recipe and a stored recipe back into text;
- ids generated from a recipe's name and the clock;
- cook mode, which steps through a recipe one instruction at a time;
- delete with its fallback selection;
- the random pick;
- start-up from local storage.

Each event handler is a pure function from the state before the event to the state after it. The browser's inputs are parameters:

- the search box text;
- `Date.now()`, as a natural number;
- `Math.random()`, as a real in [0, 1);
- what local storage and `JSON.parse` returned, as a `Stored` value: nothing, a parse error, or a parsed `null`, string, array or other value.

Modules:

- `Wrappers`: `Option`.
- `Seqs`: `filter`, and the subsequence order it keeps.
- `Text`: ASCII `toLowerCase`, `trim`, `includes`, `split`, `join`.
- `Numerals`: `toString(36)`, `String(n)`, `parseInt(s, 10)`.
- `Ids`: `generateId`.
- `Model`: the records.
- `Repository`: lookup, save, remove by id.
- `Cooking`: the cook-mode stepper.
- `Favourites`: the favourites list.
- `Search`: `getFilteredRecipes`.
- `Form`: reading and filling the recipe form.
- `Storage`: the loaders and the initial state.
- `App`: the handlers, the events, and the cook-mode invariant.

The invariant `App.CookModeValid` says two things:

- cook mode is on only while a recipe is shown;
- its step index names one of that recipe's steps when it has any; a recipe without steps sits at index 0.

It holds initially and after every sequence of events. This uses the corrected delete handler (see Findings).

## Model

| member | source | states |
|---|---|---|
| Seqs.Filter | app.js:194 | every element kept satisfies the predicate and the result is no longer than the input |
| Seqs.FilterMembers | app.js:194 | an element is kept exactly when it is in the input and satisfies the predicate |
| Seqs.FilterIsSubsequence | app.js:194 | the kept elements keep their original relative order |
| Seqs.FilterMultiset | app.js:194 | every copy of a passing element is kept and no copy of a failing one |
| Seqs.FilterAppend | app.js:555 | filtering distributes over concatenation |
| Text.Lower | app.js:193-205 | lower-casing keeps the length, changes each capital letter to its small letter, and keeps every other character |
| Text.Trim | app.js:193 | the result has no whitespace at either end, is the input with only whitespace cut from its two ends, and is the input itself when that is already trimmed |
| Text.ContainsIff | app.js:200 | `includes` holds exactly when the needle occurs at some position of the text |
| Text.Split | app.js:587 | a split has at least one part and no part contains the separator |
| Text.Join | app.js:461-463 | the joined text begins with the first part; `Text.JoinSplit` and `Form.ParseListRoundTrip` relate it to splitting |
| Text.JoinSplit | app.js:587 | joining the parts of a split with the separator gives back the original text |
| Text.SplitAtSeparator | app.js:587 | text before the first separator becomes the first part and the rest is split on |
| Numerals.ToRadix | app.js:169 | the clock value is written as at least one base-36 digit, with a leading `0` exactly for the value 0 |
| Numerals.ParseInt | app.js:585 | `NaN` exactly when no decimal digit follows the leading whitespace and one optional sign; otherwise the value of those digits, negated after a minus |
| Numerals.ShowInt | app.js:460 | `String(n)` starts with a minus sign exactly for a negative number, is otherwise made of decimal digits, and has no leading zero after the sign |
| Numerals.ParseShowInt | app.js:585 | `parseInt(String(n), 10)` is `n` for every integer up to `Number.MAX_SAFE_INTEGER` in magnitude, negative ones included |
| Ids.Slug | app.js:167 | the slug holds only `a`-`z`, `0`-`9` and single hyphens, with no hyphen at either end |
| Ids.SlugKeepsAlnum | app.js:167 | the slug keeps exactly the letters and digits of the lower-cased name, in order |
| Ids.SlugOfSlug | app.js:167 | a text already in slug form is its own slug |
| Ids.CollapseRuns | app.js:167 | the first `replace` leaves only letters, digits and single hyphens, is empty exactly for an empty text, and keeps a leading letter or digit |
| Ids.StripHyphens | app.js:167 | the second `replace` leaves no hyphen at either end and never lengthens the text |
| Ids.CollapseConcat | app.js:167 | after a letter or digit, the first `replace` treats the rest of the text on its own, so it distributes over such a cut |
| Ids.StripConcat | app.js:167 | for two parts that meet at letters or digits, the second `replace` cuts only the front of the first and the back of the second |
| Ids.SlugConcat | app.js:167 | letters and digits next to each other in the name stay next to each other: cut between two of them, the name slugs to the two pieces' slugs side by side |
| Ids.CollapseSplit | app.js:167 | a non-empty run of characters outside `[a-z0-9]` between a letter or digit and a letter or digit becomes exactly one hyphen, whatever its length |
| Ids.StripJoin | app.js:167 | cutting hyphens from both ends of two parts joined by a hyphen keeps that hyphen, when the parts meet at a letter or digit |
| Ids.SlugSplit | app.js:167 | a name whose letters and digits are separated by a run of other characters slugs to the two sides' slugs joined by one hyphen |
| Ids.GenerateId | app.js:165-171 | a generated id is the name's slug, one hyphen, and the clock value written by `toString(36)`, so a non-empty run of base-36 digits that reads back as the clock value; the text before its last hyphen is the slug |
| Repository.IndexOfId | app.js:600 | the result is the first position holding the id, and there is none exactly when no recipe has that id |
| Repository.FindById | app.js:270 | the lookup finds nothing exactly when no recipe has the id, and otherwise the first stored recipe with that id |
| Repository.CurrentRecipe | app.js:269-271 | the shown recipe is a stored recipe carrying the selected id, and there is none exactly when nothing is selected or no recipe carries the id |
| Repository.FirstId | app.js:563 | the fallback selection is the first recipe's id, and is absent when the list is empty or that id is empty |
| Repository.Upsert | app.js:613-617 | a recipe whose id is already stored replaces the first holder of that id and nothing else; otherwise it is appended after all the others |
| Repository.UpsertThenFind | app.js:613-617 | after saving, looking up the saved id finds the saved recipe |
| Repository.UpsertIdempotent | app.js:613-617 | saving the same recipe twice is the same as saving it once |
| Repository.UpsertKeepsIdsUnique | app.js:613-617 | saving keeps ids unique |
| Repository.UpsertUnchanged | app.js:613-617 | saving a recipe already stored unchanged under its id changes nothing |
| Repository.RemoveById | app.js:555 | a recipe survives exactly when it was in the list and has a different id, and every copy of a survivor is kept |
| Repository.RemoveKeepsOrder | app.js:555 | the surviving recipes keep their order |
| Repository.RemoveAbsent | app.js:555 | removing an id that no recipe has changes nothing |
| Repository.RemovePresentUnique | app.js:555 | with unique ids, removing a present id removes exactly one recipe |
| Repository.RemoveKeepsIdsUnique | app.js:555 | removing keeps ids unique |
| Repository.RemoveKeepsOthersFound | app.js:555 | removing one id does not change what a lookup of any other id finds |
| Cooking.ToggleCookMode | app.js:404-408 | toggling flips cook mode and always goes back to the first step |
| Cooking.Previous | app.js:430-435 | Previous moves one step back, and does nothing at the first step |
| Cooking.Next | app.js:437-446 | Next moves one step on, or from the last step switches cook mode off at the first step |
| Cooking.InBoundsWithSteps | app.js:404-446 | for a recipe with steps, the cook-mode invariant means the index names one of its steps |
| Cooking.TransitionsKeepInBounds | app.js:404-446 | every cook-mode button keeps the step index within the recipe's steps, or at 0 for a recipe without steps |
| Cooking.PreviousUndoesNext | app.js:430-446 | Previous undoes a Next that did not finish |
| Cooking.NextUndoesPrevious | app.js:430-446 | Next undoes a Previous that moved |
| Cooking.WalkThrough | app.js:437-446 | from the first step, k presses of Next show step k, and the press after the last step finishes |
| Favourites.IsFavourite | app.js:173-175 | an id is a favourite exactly when some position of the favourites list holds it |
| Favourites.RemoveId | app.js:179 | the id is gone, every other id keeps its membership, and a list without the id is returned unchanged |
| Favourites.ToggleFavourite | app.js:177-182 | toggling flips whether the id is a favourite and leaves every other id alone |
| Favourites.ToggleTwiceSameSet | app.js:177-182 | toggling twice restores the set of favourites |
| Favourites.ToggleTwiceFromAbsent | app.js:177-182 | toggling a non-favourite twice restores the very same list |
| Favourites.ToggleKeepsNoDuplicates | app.js:177-182 | a favourites list without repeats stays without repeats |
| Search.SearchTerm | app.js:193 | the search term is empty exactly when the trimmed input is empty |
| Search.FilteredRecipes | app.js:192-210 | every listed recipe passes the category and favourites tests, and a recipe is listed exactly when it is stored and visible |
| Search.FilterKeepsOrder | app.js:194 | the listed recipes are a subsequence of the stored ones, and each visible recipe is listed as often as it is stored |
| Search.BlankSearchShowsAll | app.js:198 | with a blank search box, a recipe is listed exactly when it passes the category and favourites tests |
| Search.MatchesTextIff | app.js:200-208 | the text test holds exactly when the term occurs, by position, in the lower-cased name, a tag or an ingredient |
| Search.SearchIff | app.js:192-210 | with a non-blank search, a recipe is listed exactly when it is stored, passes the category and favourites tests, and the lower-cased term occurs in its name, a tag or an ingredient |
| Search.FilterIdempotent | app.js:192-210 | filtering the listed recipes again with the same settings lists the same recipes |
| Form.ParseList | app.js:586-597 | the items are the trimmed parts of the split in their order with the empty ones dropped: every copy of a non-empty trimmed part is kept, and every item is non-empty, trimmed and free of the separator |
| Form.BlankBetween | app.js:586-597 | two padded items around a blank line parse to just the two items |
| Form.PaddedLines | app.js:586-597 | the text `"  Water"`, a blank line and `" Salt"` parses to `Water` and `Salt` |
| Form.ParseListRoundTrip | app.js:461-463 | a list of such items, joined as the edit form writes it, parses back to the same list |
| Form.ParseListStable | app.js:586-597 | parsing, joining and parsing again gives the first parse |
| Form.ParseServings | app.js:585 | a servings field without a leading number reads as 0, and any number read is kept |
| Form.ChooseId | app.js:581 | the hidden id when there is one, otherwise a generated id, which is never empty |
| Form.RecipeFromForm | app.js:581-611 | the saved record has a non-empty id, the trimmed name, cook time and notes, the chosen category, the servings `parseInt` reads, the parsed comma-separated tags, and the parsed ingredient and step lines |
| Form.OpenEditForm | app.js:454-465 | the edit form shows the id and text fields as stored, servings that read back as the stored value or 4 when it is 0, and each list written so that the form's parser reads it back |
| Form.EditRoundTrip | app.js:454-465 | opening a saved recipe for editing and saving it unchanged rebuilds exactly the same recipe, for a recipe in the shape the form stores (non-zero servings within the safe-integer range, tags present, trimmed fields and list items, no line break in a one-line field and no carriage return in a multi-line one) |
| Form.EditFillsDefaults | app.js:460-461 | an unchanged edit turns zero servings into 4 and missing tags into an empty list |
| Form.SoupScenario | app.js:578-611 | a new two-line recipe typed into the empty form is saved with a generated id, 4 servings and its lines in order |
| Storage.LoadRecipes | app.js:86-98 | the stored array when it is a non-empty array, the three starter recipes otherwise, so never an empty list |
| Storage.LoadFavouritesAsWritten | app.js:104-111 | missing or unparsable favourites read as an empty list, and any parsed value is kept, array or not |
| Storage.IsFavouriteAsWritten | app.js:173-175 | `includes` on the kept value is array membership for an array, a substring test for a string, and a `TypeError` for anything else |
| Storage.NonArrayFavouritesBreakLookup | app.js:104-111 | for every stored value that parses to `null`, a number, a boolean or an object, every favourite lookup throws, while the guarded loader gives no favourites |
| Storage.TextFavouritesMatchSubstrings | app.js:104-111 | stored favourites that parse to the string `"abc"` make `"b"` a favourite, while the guarded loader gives no favourites |
| Storage.LoadFavourites | app.js:104-111 | the corrected loader returns the stored array, or no favourites for anything else |
| Storage.LoadFavouritesAgrees | app.js:104-111 | wherever the original loader yields an array, the corrected one gives the same list and every lookup the same answer |
| Storage.InitialState | app.js:117-127 | the app starts with the recipes and favourites the loaders return, so a non-empty list, with the first recipe selected, no filters and cook mode off |
| App.SelectRecipe | app.js:255-258 | clicking a recipe selects it and switches cook mode off, touching nothing else |
| App.SetCategory | app.js:507 | a category chip sets the active category and changes nothing else |
| App.ToggleFavouritesOnly | app.js:518 | the switch flips favourites-only and changes nothing else |
| App.CategoryChipNarrowsList | app.js:504-515 | after choosing a category chip, only stored recipes of that category are listed |
| App.FavouritesOnlyNarrowsList | app.js:517-525 | with favourites-only on, only listed favourites remain, and switching it off again restores the list |
| App.RandomIndex | app.js:530 | `Math.floor(Math.random() * n)` is the whole number at or just below the scaled value, so a position in the list |
| App.PickRandom | app.js:527-536 | with nothing listed nothing changes; otherwise a listed recipe is selected and cook mode is switched off |
| App.EveryListedRecipeCanBePicked | app.js:530 | every listed recipe is the pick for some value of `Math.random()` |
| App.ToggleFavouriteOf | app.js:177-183 | the star flips the recipe's favourite status and changes nothing else |
| App.ConfirmDeleteAsWritten | app.js:553-569 | the delete handler as written never changes cook mode |
| App.SelectionAfterDelete | app.js:562-564 | a selection other than the deleted id is kept, a deleted selection moves to the first remaining recipe, and the selection never names the deleted id once no recipe carries it |
| App.ConfirmDelete | app.js:553-569 | the survivors are every copy of every recipe with another id, in their order, the id leaves the favourites, a deleted selection falls back to the first recipe, and cook mode is switched off |
| App.DeleteKeepsOtherSelection | app.js:562-564 | deleting a recipe that is not shown leaves the shown recipe as it was |
| App.DeleteCount | app.js:555 | deleting an absent id keeps the list; with unique ids, deleting a present id removes exactly one recipe and keeps ids unique |
| App.DeleteIdempotent | app.js:553-569 | confirming the same delete twice is the same as confirming it once |
| App.Submit | app.js:578-626 | the form's recipe is saved, selected and shown, cook mode is off, and filters and favourites are kept |
| App.SubmitUnchangedEdit | app.js:578-626 | saving an unchanged edit of a normalised shown recipe leaves the recipe list as it was |
| App.CookToggle | app.js:404-408 | with a recipe shown, the cook-mode button toggles cook mode; otherwise nothing changes |
| App.CookPrevious | app.js:430-435 | while cooking a shown recipe, Previous steps back; nothing else in the state changes |
| App.CookNext | app.js:437-446 | while cooking a shown recipe, Next counts that recipe's steps; nothing else in the state changes |
| App.StepKeepsCookModeValid | app.js:404-446 | every event keeps cook mode on a shown recipe and within its steps (at 0 for a recipe without steps) |
| App.RunKeepsCookModeValid | app.js:404-446 | any sequence of events keeps cook mode valid |
| App.InitialStateValid | app.js:117-127 | cook mode is valid at start-up and after any sequence of events from there |
| App.DeleteAsWrittenBreaksCookMode | app.js:553-569 | the handler as written takes a valid state to one whose cook-mode step is past the last step of the newly shown recipe |

## Left out

- Rendering, the DOM, modals, focus, the keyboard shortcut and the ingredient/step check boxes: they only show the state.
- `service-worker.js`: caching of the app's files is not part of this model.
- Reading and writing local storage and `JSON.parse`: their outcome is the input `Stored`, and the `save*` calls have no effect on the state.
- The clear-search button (app.js:497-501): it sets the search input to the empty string, which is the `input` parameter.
- `Text.Trim`, `Text.TrimStart`, `Text.Lower`, `Numerals.ParseInt`: ASCII only. Unicode whitespace and non-ASCII case mapping are not modelled, so `parseInt("\u00A04", 10)` is 4 in JavaScript and `NaN` (servings 0) in the model.
- Stored recipes are assumed to be complete records. `loadRecipes` accepts any non-empty array (app.js:91-94), and a stored element without a `name` or `ingredients` makes the search (app.js:200-205) throw; the model's `Recipe` always has every field.
- `Storage.InitialState`: the state uses the guarded `Storage.LoadFavourites`, because the state's favourites are a list and cannot hold a non-array value. As written, such a value makes the first render of the list (app.js:242) throw (see Findings).
- `Numerals.ParseInt`, `Form.ParseServings`: the digits are read as an exact integer. JavaScript numbers are doubles, so `parseInt` rounds a value above 2^53 in magnitude; the model does not round.
- `Numerals.ParseShowInt`, `Numerals.ShowInt`, `Form.EditRoundTrip`, `App.SubmitUnchangedEdit`: `String(n)` is modelled as plain decimal digits. JavaScript writes 10^21 and above in exponent form (`String(1e21)` is `"1e+21"`, which `parseInt` reads as 1). So the round trips are proved only for servings up to `Number.MAX_SAFE_INTEGER` (2^53 - 1) in magnitude, which `Form.IsNormalised` requires.
- `Storage.DefaultRecipes`: the starter recipes' ingredients, steps and notes are left empty, because no property depends on them.
- `Form.OpenEditForm`: the category select is assumed to keep any value assigned to it. A browser drops a value that is not one of its options.
- `app.js` has no sort modes, no created/updated timestamps, no remote sync and no check for an empty name. It stores a recipe with an empty name and accepts negative servings, and the model does the same.
- `Storage.IsFavouriteAsWritten`: only the lookup is modelled on a non-array favourites value; the later `filter` (app.js:179) or `push` (app.js:181) on a string, which also throw, are not.
- `App.DeleteConfirmed` events carry any pending id. The page only ever sets it to the shown recipe's id, so the model allows more than the page does.

## Findings

| source | as written | input that shows it | evidently intended | confidence | as-written member | corrected member |
|---|---|---|---|---|---|---|
| app.js:553-569 | confirming a delete moves the selection to the first recipe but leaves `cookMode` as it was | recipes `a` (steps x, y) and `b` (step z), `a` shown in cook mode at step 2; delete `a` | cook mode switched off, as every other handler that changes the selection does (app.js:257-258, 532-533, 621-622) | high; not executed | App.DeleteAsWrittenBreaksCookMode | App.ConfirmDelete |
| app.js:104-111 | `loadFavourites` keeps any parsed JSON value, with no `Array.isArray` guard, so `favourites.includes` (app.js:174) throws or tests substrings | stored favourites `null` or `{}` (lookup throws); `"abc"` (id `b` counts as a favourite) | the same guard `loadRecipes` has (app.js:91), so a non-array reads as no favourites | medium; not executed | Storage.NonArrayFavouritesBreakLookup | Storage.LoadFavourites |

=== FILE: app.dfy ===
/** The state changes of app.js's event handlers, each a function from the state
    before the event to the state after it, and the cook-mode bounds they keep. */
module App {
  import opened Wrappers
  import opened Model
  import opened Repository
  import Favourites
  import Cooking
  import Search
  import Form
  import Storage
  import Seqs

  /** Clicking a recipe in the list (app.js:255-258). */
  function SelectRecipe(s: AppState, id: string): (r: AppState)
    ensures r.currentRecipeId == Some(id) && r.cookMode == Stopped
    ensures r.recipes == s.recipes && r.favourites == s.favourites
    ensures r.activeCategory == s.activeCategory && r.showFavouritesOnly == s.showFavouritesOnly
  {
    s.(currentRecipeId := Some(id), cookMode := Stopped)
  }

  /** A category chip (app.js:507); the "all" chip carries no category. */
  function SetCategory(s: AppState, category: string): (r: AppState)
    ensures r.activeCategory == category
    ensures r.(activeCategory := s.activeCategory) == s
  {
    s.(activeCategory := category)
  }

  /** The favourites-only switch (app.js:518). */
  function ToggleFavouritesOnly(s: AppState): (r: AppState)
    ensures r.showFavouritesOnly != s.showFavouritesOnly
    ensures r.(showFavouritesOnly := s.showFavouritesOnly) == s
  {
    s.(showFavouritesOnly := !s.showFavouritesOnly)
  }

  /** Choosing a category chip lists only recipes of that category. */
  lemma {:induction false} CategoryChipNarrowsList(s: AppState, category: string, input: string)
    requires category != ""
    ensures forall x :: x in Search.FilteredRecipes(SetCategory(s, category), input) ==>
              x in s.recipes && x.category == category
  {
  }

  /** Switching favourites-only on lists only favourites; switching it off again
      restores the list shown before. */
  lemma {:induction false} FavouritesOnlyNarrowsList(s: AppState, input: string)
    requires !s.showFavouritesOnly
    ensures forall x :: x in Search.FilteredRecipes(ToggleFavouritesOnly(s), input) ==>
              x in Search.FilteredRecipes(s, input) && Favourites.IsFavourite(s.favourites, x.id)
    ensures Search.FilteredRecipes(ToggleFavouritesOnly(ToggleFavouritesOnly(s)), input)
         == Search.FilteredRecipes(s, input)
  {
    assert ToggleFavouritesOnly(ToggleFavouritesOnly(s)) == s;
  }

  /** `Math.floor(random * n)` for `random` in [0, 1): a position in a list of `n`. */
  function RandomIndex(random: real, n: nat): (i: nat)
    requires 0.0 <= random < 1.0 && n > 0
    ensures i < n
    ensures i as real <= random * n as real < i as real + 1.0
  {
    ScaleBelow(random, n);
    (random * n as real).Floor
  }

  lemma {:induction false} ScaleBelow(random: real, n: nat)
    requires 0.0 <= random < 1.0 && n > 0
    ensures 0.0 <= random * n as real < n as real
  {
    assert n as real - random * n as real == (1.0 - random) * n as real;
  }

  /** Every position of a list of `n` is drawn by some value of `Math.random()`. */
  lemma {:induction false} RandomIndexCovers(n: nat, k: nat) returns (random: real)
    requires k < n
    ensures 0.0 <= random < 1.0 && RandomIndex(random, n) == k
  {
    random := k as real / n as real;
    assert random * n as real == k as real;
  }

  /** The random-recipe button (app.js:527-536), with `Math.random()` passed in as `random`:
      nothing happens when no recipe is listed, otherwise a listed recipe is selected. */
  function PickRandom(s: AppState, input: string, random: real): (r: AppState)
    requires 0.0 <= random < 1.0
    ensures |Search.FilteredRecipes(s, input)| == 0 ==> r == s
    ensures |Search.FilteredRecipes(s, input)| > 0 ==>
              && r.cookMode == Stopped
              && r.currentRecipeId.Some?
              && (exists k :: 0 <= k < |Search.FilteredRecipes(s, input)|
                             && Search.FilteredRecipes(s, input)[k].id == r.currentRecipeId.value)
              && r == s.(currentRecipeId := r.currentRecipeId, cookMode := Stopped)
  {
    var filtered := Search.FilteredRecipes(s, input);
    if |filtered| == 0 then s
    else
      var k := RandomIndex(random, |filtered|);
      SelectRecipe(s, filtered[k].id)
  }

  /** Every listed recipe is the pick for some value of `Math.random()`. */
  lemma {:induction false} EveryListedRecipeCanBePicked(s: AppState, input: string, k: nat)
    requires k < |Search.FilteredRecipes(s, input)|
    ensures exists random: real :: 0.0 <= random < 1.0
              && PickRandom(s, input, random).currentRecipeId == Some(Search.FilteredRecipes(s, input)[k].id)
  {
    var filtered := Search.FilteredRecipes(s, input);
    var random := RandomIndexCovers(|filtered|, k);
    assert PickRandom(s, input, random).currentRecipeId == Some(filtered[k].id);
  }

  /** The star button (app.js:177-183). */
  function ToggleFavouriteOf(s: AppState, id: string): (r: AppState)
    ensures Favourites.IsFavourite(r.favourites, id) <==> !Favourites.IsFavourite(s.favourites, id)
    ensures forall x :: x != id ==> (Favourites.IsFavourite(r.favourites, x) <==> Favourites.IsFavourite(s.favourites, x))
    ensures r == s.(favourites := r.favourites)
  {
    s.(favourites := Favourites.ToggleFavourite(s.favourites, id))
  }

  /** Where the selection goes when recipe `id` is deleted (app.js:562-564). */
  function SelectionAfterDelete(current: Option<string>, id: string, remaining: seq<Recipe>): (r: Option<string>)
    ensures current != Some(id) ==> r == current
    ensures current == Some(id) ==> r == FirstId(remaining)
    ensures (forall k :: 0 <= k < |remaining| ==> remaining[k].id != id) ==> r != Some(id)
  {
    if current == Some(id) then FirstId(remaining) else current
  }

  /** The confirm-delete handler as written (app.js:553-569): remove the recipe and
      its favourite, move the selection off it; cook mode is left as it was. */
  function ConfirmDeleteAsWritten(s: AppState, pending: Option<string>): (r: AppState)
    ensures pending.None? || pending.value == "" ==> r == s
    ensures r.cookMode == s.cookMode
  {
    if pending.None? || pending.value == "" then s
    else
      var id := pending.value;
      var remaining := RemoveById(s.recipes, id);
      s.(recipes := remaining,
         favourites := Favourites.RemoveId(s.favourites, id),
         currentRecipeId := SelectionAfterDelete(s.currentRecipeId, id, remaining))
  }

  /** The confirm-delete handler with cook mode reset, as every other handler that
      can change the selection does. */
  function ConfirmDelete(s: AppState, pending: Option<string>): (r: AppState)
    ensures pending.None? || pending.value == "" ==> r == s
    ensures pending.Some? && pending.value != "" ==>
              var id := pending.value;
              && r.recipes == RemoveById(s.recipes, id)
              && (forall x :: x in r.recipes <==> x in s.recipes && x.id != id)
              && Seqs.IsSubsequence(r.recipes, s.recipes)
              && !Favourites.IsFavourite(r.favourites, id)
              && (forall f :: f != id ==> (Favourites.IsFavourite(r.favourites, f) <==> Favourites.IsFavourite(s.favourites, f)))
              && (s.currentRecipeId == Some(id) ==> r.currentRecipeId == FirstId(r.recipes))
              && (s.currentRecipeId != Some(id) ==> r.currentRecipeId == s.currentRecipeId)
              && r.cookMode == Stopped
              && r.activeCategory == s.activeCategory && r.showFavouritesOnly == s.showFavouritesOnly
  {
    if pending.None? || pending.value == "" then s
    else
      RemoveKeepsOrder(s.recipes, pending.value);
      ConfirmDeleteAsWritten(s, pending).(cookMode := Stopped)
  }

  /** Deleting another recipe leaves the shown recipe as it was. */
  lemma {:induction false} DeleteKeepsOtherSelection(s: AppState, id: string)
    requires id != "" && s.currentRecipeId != Some(id)
    ensures CurrentRecipe(ConfirmDelete(s, Some(id))) == CurrentRecipe(s)
  {
    if s.currentRecipeId.Some? {
      RemoveKeepsOthersFound(s.recipes, id, s.currentRecipeId.value);
    }
  }

  /** With unique ids, deleting a present recipe removes exactly one, keeping the
      order of the others; deleting an absent id leaves the recipes alone. */
  lemma {:induction false} DeleteCount(s: AppState, id: string)
    requires id != ""
    ensures IndexOfId(s.recipes, id).None? ==> ConfirmDelete(s, Some(id)).recipes == s.recipes
    ensures IdsUnique(s.recipes) && IndexOfId(s.recipes, id).Some? ==>
              |ConfirmDelete(s, Some(id)).recipes| == |s.recipes| - 1
    ensures IdsUnique(s.recipes) ==> IdsUnique(ConfirmDelete(s, Some(id)).recipes)
  {
    if IndexOfId(s.recipes, id).None? {
      RemoveAbsent(s.recipes, id);
    }
    if IdsUnique(s.recipes) {
      RemoveKeepsIdsUnique(s.recipes, id);
      if IndexOfId(s.recipes, id).Some? {
        RemovePresentUnique(s.recipes, id);
      }
    }
  }

  /** Confirming the same delete twice is the same as confirming it once. */
  lemma {:induction false} DeleteIdempotent(s: AppState, pending: Option<string>)
    ensures ConfirmDelete(ConfirmDelete(s, pending), pending) == ConfirmDelete(s, pending)
  {
    if pending.Some? && pending.value != "" {
      var id := pending.value;
      var once := ConfirmDelete(s, pending);
      assert forall k :: 0 <= k < |once.recipes| ==> once.recipes[k].id != id;
      assert once.currentRecipeId != Some(id);
      RemoveAbsent(once.recipes, id);
    }
  }

  /** The form's submit handler (app.js:578-626), with the clock passed in as `now`. */
  function Submit(s: AppState, form: Form.RecipeForm, now: nat): (r: AppState)
    ensures var saved := Form.RecipeFromForm(form, now);
            && r.recipes == Upsert(s.recipes, saved)
            && r.currentRecipeId == Some(saved.id)
            && CurrentRecipe(r) == Some(saved)
            && r.cookMode == Stopped
            && r.favourites == s.favourites
            && r.activeCategory == s.activeCategory && r.showFavouritesOnly == s.showFavouritesOnly
  {
    var saved := Form.RecipeFromForm(form, now);
    UpsertThenFind(s.recipes, saved);
    s.(recipes := Upsert(s.recipes, saved), currentRecipeId := Some(saved.id), cookMode := Stopped)
  }

  /** Opening the shown recipe for editing and saving without changes leaves the
      recipe list as it was. */
  lemma {:induction false} SubmitUnchangedEdit(s: AppState, shown: Recipe, now: nat)
    requires CurrentRecipe(s) == Some(shown) && Form.IsNormalised(shown)
    ensures Submit(s, Form.OpenEditForm(shown), now).recipes == s.recipes
  {
    assert FindById(s.recipes, shown.id) == Some(shown);
    SaveUnchanged(s.recipes, shown, now);
  }

  lemma {:induction false} SaveUnchanged(recipes: seq<Recipe>, shown: Recipe, now: nat)
    requires FindById(recipes, shown.id) == Some(shown) && Form.IsNormalised(shown)
    ensures Upsert(recipes, Form.RecipeFromForm(Form.OpenEditForm(shown), now)) == recipes
  {
    Form.EditRoundTrip(shown, now);
    UpsertUnchanged(recipes, shown);
  }

  /** The number of steps of the shown recipe (none when no recipe is shown). */
  function StepCount(s: AppState): int {
    match CurrentRecipe(s)
    case None => 0
    case Some(shown) => |shown.steps|
  }

  /** The cook-mode button exists only in a recipe's detail view (app.js:343-345, 381-383). */
  function CookToggle(s: AppState): (r: AppState)
    ensures CurrentRecipe(s).Some? ==> r.cookMode == Cooking.ToggleCookMode(s.cookMode)
    ensures CurrentRecipe(s).None? ==> r == s
    ensures r == s.(cookMode := r.cookMode)
  {
    if CurrentRecipe(s).None? then s else s.(cookMode := Cooking.ToggleCookMode(s.cookMode))
  }

  /** Previous exists only while the cook-mode box is shown (app.js:313-324, 397-399). */
  function CookPrevious(s: AppState): (r: AppState)
    ensures s.cookMode.enabled && CurrentRecipe(s).Some? ==> r.cookMode == Cooking.Previous(s.cookMode)
    ensures r == s.(cookMode := r.cookMode)
  {
    if s.cookMode.enabled && CurrentRecipe(s).Some? then s.(cookMode := Cooking.Previous(s.cookMode)) else s
  }

  /** Next, counting the steps of the shown recipe. */
  function CookNext(s: AppState): (r: AppState)
    ensures s.cookMode.enabled && CurrentRecipe(s).Some? ==> r.cookMode == Cooking.Next(s.cookMode, StepCount(s))
    ensures r == s.(cookMode := r.cookMode)
  {
    if s.cookMode.enabled && CurrentRecipe(s).Some? then s.(cookMode := Cooking.Next(s.cookMode, StepCount(s))) else s
  }

  /** Cook mode is on only while a recipe is shown, and its index names one of that recipe's
      steps when it has any; a recipe without steps sits at index 0. */
  predicate CookModeValid(s: AppState) {
    && Cooking.InBounds(s.cookMode, StepCount(s))
    && (s.cookMode.enabled ==> CurrentRecipe(s).Some?)
  }

  /** The user's actions, with the browser's clock and random numbers carried as data. */
  datatype Event =
    | Selected(id: string)
    | CategoryChosen(category: string)
    | FavouritesOnlyToggled
    | RandomPicked(input: string, random: real)
    | FavouriteToggled(favouriteId: string)
    | DeleteConfirmed(pending: Option<string>)
    | FormSubmitted(form: Form.RecipeForm, now: nat)
    | CookModeToggled
    | PreviousPressed
    | NextPressed

  predicate ValidEvent(e: Event) {
    e.RandomPicked? ==> 0.0 <= e.random < 1.0
  }

  function Step(s: AppState, e: Event): AppState
    requires ValidEvent(e)
  {
    match e
    case Selected(id) => SelectRecipe(s, id)
    case CategoryChosen(category) => SetCategory(s, category)
    case FavouritesOnlyToggled => ToggleFavouritesOnly(s)
    case RandomPicked(input, random) => PickRandom(s, input, random)
    case FavouriteToggled(id) => ToggleFavouriteOf(s, id)
    case DeleteConfirmed(pending) => ConfirmDelete(s, pending)
    case FormSubmitted(form, now) => Submit(s, form, now)
    case CookModeToggled => CookToggle(s)
    case PreviousPressed => CookPrevious(s)
    case NextPressed => CookNext(s)
  }

  function Run(s: AppState, events: seq<Event>): AppState
    requires forall k :: 0 <= k < |events| ==> ValidEvent(events[k])
    decreases |events|
  {
    if |events| == 0 then s else Run(Step(s, events[0]), events[1..])
  }

  /** Every event keeps cook mode valid. */
  lemma {:induction false} StepKeepsCookModeValid(s: AppState, e: Event)
    requires ValidEvent(e) && CookModeValid(s)
    ensures CookModeValid(Step(s, e))
  {
    match e
    case CookModeToggled =>
      Cooking.TransitionsKeepInBounds(s.cookMode, StepCount(s));
      CookButtonKeepsValid(s, CookToggle(s));
    case PreviousPressed =>
      Cooking.TransitionsKeepInBounds(s.cookMode, StepCount(s));
      CookButtonKeepsValid(s, CookPrevious(s));
    case NextPressed =>
      Cooking.TransitionsKeepInBounds(s.cookMode, StepCount(s));
      CookButtonKeepsValid(s, CookNext(s));
    case RandomPicked(input, random) =>
      PickKeepsCookModeValid(s, input, random);
    case DeleteConfirmed(pending) =>
      DeleteKeepsCookModeValid(s, pending);
    case FormSubmitted(form, now) =>
      SubmitKeepsCookModeValid(s, form, now);
    case _ =>
  }

  /** A cook-mode button changes only cook mode, so the shown recipe stays the same. */
  lemma {:induction false} CookButtonKeepsValid(s: AppState, t: AppState)
    requires t == s.(cookMode := t.cookMode)
    requires Cooking.InBounds(t.cookMode, StepCount(s))
    requires t.cookMode.enabled ==> CurrentRecipe(s).Some?
    ensures CookModeValid(t)
  {
    assert CurrentRecipe(t) == CurrentRecipe(s);
  }

  lemma {:induction false} PickKeepsCookModeValid(s: AppState, input: string, random: real)
    requires 0.0 <= random < 1.0 && CookModeValid(s)
    ensures CookModeValid(PickRandom(s, input, random))
  {
  }

  lemma {:induction false} DeleteKeepsCookModeValid(s: AppState, pending: Option<string>)
    requires CookModeValid(s)
    ensures CookModeValid(ConfirmDelete(s, pending))
  {
  }

  lemma {:induction false} SubmitKeepsCookModeValid(s: AppState, form: Form.RecipeForm, now: nat)
    requires CookModeValid(s)
    ensures CookModeValid(Submit(s, form, now))
  {
  }

  /** The app starts with cook mode valid and keeps it so through any sequence of events. */
  lemma {:induction false} RunKeepsCookModeValid(s: AppState, events: seq<Event>)
    requires forall k :: 0 <= k < |events| ==> ValidEvent(events[k])
    requires CookModeValid(s)
    ensures CookModeValid(Run(s, events))
    decreases |events|
  {
    if |events| > 0 {
      StepKeepsCookModeValid(s, events[0]);
      RunKeepsCookModeValid(Step(s, events[0]), events[1..]);
    }
  }

  lemma {:induction false} InitialStateValid(recipes: Storage.Stored<Recipe>, favourites: Storage.Stored<string>, events: seq<Event>)
    requires forall k :: 0 <= k < |events| ==> ValidEvent(events[k])
    ensures CookModeValid(Storage.InitialState(recipes, favourites))
    ensures CookModeValid(Run(Storage.InitialState(recipes, favourites), events))
  {
    RunKeepsCookModeValid(Storage.InitialState(recipes, favourites), events);
  }

  /** With the handler as written, deleting the shown recipe at step 2 of cook mode
      selects a one-step recipe and leaves cook mode on at step 2 of 1. */
  lemma {:induction false} DeleteAsWrittenBreaksCookMode()
    ensures var a := Recipe("a", "A", "", "", 1, None, [], ["x", "y"], "");
            var b := Recipe("b", "B", "", "", 1, None, [], ["z"], "");
            var s := AppState([a, b], [], Some("a"), "", false, CookMode(true, 1));
            && CookModeValid(s)
            && !CookModeValid(ConfirmDeleteAsWritten(s, Some("a")))
  {
    var a := Recipe("a", "A", "", "", 1, None, [], ["x", "y"], "");
    var b := Recipe("b", "B", "", "", 1, None, [], ["z"], "");
    var s := AppState([a, b], [], Some("a"), "", false, CookMode(true, 1));
    assert IndexOfId([a, b], "a") == Some(0);
    var r := ConfirmDeleteAsWritten(s, Some("a"));
    assert r.recipes == [b];
    assert IndexOfId([b], "b") == Some(0);
    assert StepCount(r) == 1;
  }
}

=== FILE: cooking.dfy ===
/** The cook-mode stepper: `toggleCookMode` (app.js:404-408) and the Previous/Next
    buttons wired by `initCookMode` (app.js:430-447). */
module Cooking {
  import opened Model

  /** `toggleCookMode`: switch on or off, always back at the first step. */
  function ToggleCookMode(cm: CookMode): (r: CookMode)
    ensures r.enabled != cm.enabled && r.index == 0
  {
    CookMode(!cm.enabled, 0)
  }

  /** The Previous button: one step back, nothing at the first step. */
  function Previous(cm: CookMode): (r: CookMode)
    ensures r.enabled == cm.enabled
    ensures cm.index > 0 ==> r.index == cm.index - 1
    ensures cm.index <= 0 ==> r == cm
  {
    if cm.index > 0 then cm.(index := cm.index - 1) else cm
  }

  /** The Next button for a recipe with `total` steps: one step on, or, from the
      last step, finish (switch off and rewind). */
  function Next(cm: CookMode, total: int): (r: CookMode)
    ensures cm.index < total - 1 ==> r.enabled == cm.enabled && r.index == cm.index + 1
    ensures cm.index >= total - 1 ==> r == Stopped
    ensures r.index < total || r == Stopped
  {
    if cm.index < total - 1 then cm.(index := cm.index + 1) else Stopped
  }

  /** The step index names a step of a `total`-step recipe (or is the first position
      of a recipe without steps), and a switched-off stepper sits at the first step. */
  predicate InBounds(cm: CookMode, total: int) {
    && 0 <= cm.index
    && (cm.index == 0 || cm.index < total)
    && (!cm.enabled ==> cm.index == 0)
  }

  /** For a recipe that has steps, `InBounds` is `0 <= index < total`. */
  lemma {:induction false} InBoundsWithSteps(cm: CookMode, total: int)
    requires total > 0
    ensures InBounds(cm, total) ==> 0 <= cm.index < total
  {
  }

  /** Every button keeps the index in bounds; Previous and Next exist only while cook mode is on. */
  lemma {:induction false} TransitionsKeepInBounds(cm: CookMode, total: int)
    requires InBounds(cm, total)
    ensures InBounds(ToggleCookMode(cm), total)
    ensures InBounds(Previous(cm), total)
    ensures cm.enabled ==> InBounds(Next(cm, total), total)
    ensures InBounds(Stopped, total)
  {
  }

  /** Previous undoes a Next that did not finish. */
  lemma {:induction false} PreviousUndoesNext(cm: CookMode, total: int)
    requires 0 <= cm.index < total - 1
    ensures Previous(Next(cm, total)) == cm
  {
  }

  /** Next undoes a Previous that moved. */
  lemma {:induction false} NextUndoesPrevious(cm: CookMode, total: int)
    requires 0 < cm.index < total
    ensures Next(Previous(cm), total) == cm
  {
  }

  /** Pressing Next `k` times. */
  function NextTimes(cm: CookMode, total: int, k: nat): CookMode
    decreases k
  {
    if k == 0 then cm else NextTimes(Next(cm, total), total, k - 1)
  }

  /** From the first step of a `total`-step recipe, `k < total` presses of Next show
      step `k`, and the `total`-th press finishes. */
  lemma {:induction false} WalkThrough(total: nat, k: nat)
    requires 0 < total && k <= total
    ensures k < total ==> NextTimes(CookMode(true, 0), total, k) == CookMode(true, k)
    ensures k == total ==> NextTimes(CookMode(true, 0), total, k) == Stopped
  {
    WalkFrom(total, 0, k);
  }

  lemma {:induction false} WalkFrom(total: nat, i: nat, k: nat)
    requires i < total && i + k <= total
    ensures i + k < total ==> NextTimes(CookMode(true, i), total, k) == CookMode(true, i + k)
    ensures i + k == total ==> NextTimes(CookMode(true, i), total, k) == Stopped
    decreases k
  {
    if k > 0 {
      if i < total - 1 {
        WalkFrom(total, i + 1, k - 1);
      } else {
        assert k == 1;
        assert NextTimes(CookMode(true, i), total, k) == NextTimes(Stopped, total, 0);
      }
    }
  }

  /** A three-step recipe: Previous at the first step does nothing, and three presses of Next finish. */
  lemma {:induction false} ThreeSteps()
    ensures Previous(CookMode(true, 0)) == CookMode(true, 0)
    ensures NextTimes(CookMode(true, 0), 3, 2) == CookMode(true, 2)
    ensures NextTimes(CookMode(true, 0), 3, 3) == Stopped
  {
    WalkThrough(3, 2);
    WalkThrough(3, 3);
  }
}

=== FILE: favourites.dfy ===
/** The favourites list: `isFavourite` and `toggleFavourite` (app.js:173-183).
    It is a list of ids used as a set, and it is never checked against the recipes. */
module Favourites {
  import Seqs

  /** `favourites.includes(id)`: some position of the list holds `id`. */
  predicate IsFavourite(favourites: seq<string>, id: string): (b: bool)
    ensures b <==> exists k :: 0 <= k < |favourites| && favourites[k] == id
  {
    id in favourites
  }

  /** `favourites.filter(f => f !== id)`: every copy of `id` goes, the rest keep their order. */
  function RemoveId(favourites: seq<string>, id: string): (r: seq<string>)
    ensures !IsFavourite(r, id)
    ensures forall x :: x != id ==> (IsFavourite(r, x) <==> IsFavourite(favourites, x))
    ensures !IsFavourite(favourites, id) ==> r == favourites
  {
    var keep := (f: string) => f != id;
    Seqs.FilterMembers(keep, favourites);
    if IsFavourite(favourites, id) then Seqs.Filter(keep, favourites)
    else
      Seqs.FilterAllPass(keep, favourites);
      Seqs.Filter(keep, favourites)
  }

  /** `toggleFavourite(id)`: removes `id` when present, appends it otherwise. */
  function ToggleFavourite(favourites: seq<string>, id: string): (r: seq<string>)
    ensures IsFavourite(r, id) <==> !IsFavourite(favourites, id)
    ensures forall x :: x != id ==> (IsFavourite(r, x) <==> IsFavourite(favourites, x))
  {
    if IsFavourite(favourites, id) then RemoveId(favourites, id) else favourites + [id]
  }

  /** Toggling twice restores the set of favourites. */
  lemma {:induction false} ToggleTwiceSameSet(favourites: seq<string>, id: string)
    ensures forall x :: IsFavourite(ToggleFavourite(ToggleFavourite(favourites, id), id), x)
                    <==> IsFavourite(favourites, x)
  {
  }

  /** Toggling an id that was not a favourite twice restores the very same list. */
  lemma {:induction false} ToggleTwiceFromAbsent(favourites: seq<string>, id: string)
    requires !IsFavourite(favourites, id)
    ensures ToggleFavourite(ToggleFavourite(favourites, id), id) == favourites
  {
    var p := (f: string) => f != id;
    Seqs.FilterAppend(p, favourites, [id]);
    Seqs.FilterAllPass(p, favourites);
    assert [id][1..] == [];
  }

  /** A list of favourites without repeats stays without repeats. */
  lemma {:induction false} ToggleKeepsNoDuplicates(favourites: seq<string>, id: string)
    requires Seqs.NoDuplicates(favourites)
    ensures Seqs.NoDuplicates(ToggleFavourite(favourites, id))
  {
    if IsFavourite(favourites, id) {
      Seqs.FilterKeepsNoDuplicates((f: string) => f != id, favourites);
    }
  }
}

=== FILE: form.dfy ===
/** The recipe form: how the submit handler reads its fields (app.js:581-598) and how
    `openRecipeModal` fills them from a stored recipe (app.js:454-465). */
module Form {
  import opened Wrappers
  import opened Text
  import opened Model
  import Seqs
  import Numerals
  import Ids

  /** The raw text of the form's fields, `id` being the hidden field. */
  datatype RecipeForm = RecipeForm(
    id: string,
    name: string,
    category: string,
    cookTime: string,
    servings: string,
    tags: string,
    ingredients: string,
    steps: string,
    notes: string)

  /** `Boolean(s)` for a string. */
  predicate NonEmpty(s: string) {
    s != ""
  }

  /** `.map(t => t.trim())`. */
  function TrimAll(parts: seq<string>): (r: seq<string>)
    ensures |r| == |parts|
    ensures forall k :: 0 <= k < |r| ==> r[k] == Trim(parts[k])
  {
    seq(|parts|, k requires 0 <= k < |parts| => Trim(parts[k]))
  }

  /** What one element of a parsed list looks like. */
  predicate IsListItem(item: string, sep: char) {
    item != "" && IsTrimmed(item) && sep !in item
  }

  /** `text.split(sep).map(t => t.trim()).filter(Boolean)`. */
  function ParseList(text: string, sep: char): (items: seq<string>)
    ensures forall k :: 0 <= k < |items| ==> IsListItem(items[k], sep)
    ensures Seqs.IsSubsequence(items, TrimAll(Split(text, sep)))
    ensures forall x :: multiset(items)[x] == if x != "" then multiset(TrimAll(Split(text, sep)))[x] else 0
  {
    TrimmedParts(text, sep);
    KeptParts(TrimAll(Split(text, sep)), sep);
    Seqs.Filter(NonEmpty, TrimAll(Split(text, sep)))
  }

  /** Keeping the non-empty trimmed parts of a split gives list items, in the parts'
      order, every non-empty part as often as it occurs. */
  lemma {:induction false} KeptParts(trimmed: seq<string>, sep: char)
    requires forall k :: 0 <= k < |trimmed| ==> IsTrimmed(trimmed[k]) && sep !in trimmed[k]
    ensures forall k :: 0 <= k < |Seqs.Filter(NonEmpty, trimmed)| ==> IsListItem(Seqs.Filter(NonEmpty, trimmed)[k], sep)
    ensures Seqs.IsSubsequence(Seqs.Filter(NonEmpty, trimmed), trimmed)
    ensures forall x :: multiset(Seqs.Filter(NonEmpty, trimmed))[x] == if x != "" then multiset(trimmed)[x] else 0
  {
    Seqs.FilterMembers(NonEmpty, trimmed);
    Seqs.FilterIsSubsequence(NonEmpty, trimmed);
    Seqs.FilterMultiset(NonEmpty, trimmed);
  }

  /** The trimmed parts of a split are trimmed and free of the separator. */
  lemma {:induction false} TrimmedParts(text: string, sep: char)
    ensures forall k :: 0 <= k < |TrimAll(Split(text, sep))| ==>
              IsTrimmed(TrimAll(Split(text, sep))[k]) && sep !in TrimAll(Split(text, sep))[k]
  {
    var parts := Split(text, sep);
    forall k | 0 <= k < |parts| ensures sep !in TrimAll(parts)[k] {
      TrimmedInfixHasNo(parts[k], sep);
    }
  }

  /** Typed text with padding and a blank line: the padding is cut and the blank line dropped. */
  lemma {:induction false} PaddedLines()
    ensures ParseList("  Water\n\n Salt", '\n') == ["Water", "Salt"]
  {
    PaddedSplit();
    PaddedNormalise();
  }

  lemma {:induction false} PaddedSplit()
    ensures Split("  Water\n\n Salt", '\n') == ["  Water", "", " Salt"]
  {
    assert "  Water\n\n Salt" == "  Water" + ['\n'] + "\n Salt";
    SplitAtSeparator("  Water", "\n Salt", '\n');
    SplitSalt();
  }

  lemma {:induction false} SplitSalt()
    ensures Split("\n Salt", '\n') == ["", " Salt"]
  {
    assert "\n Salt" == "" + ['\n'] + " Salt";
    SplitAtSeparator("", " Salt", '\n');
    SplitWithout(" Salt", '\n');
  }

  lemma {:induction false} PaddedNormalise()
    ensures Seqs.Filter(NonEmpty, TrimAll(["  Water", "", " Salt"])) == ["Water", "Salt"]
  {
    assert "  " + "Water" == "  Water" && " " + "Salt" == " Salt";
    BlankBetween("  ", "Water", " ", "Salt");
  }

  /** Two padded items around a blank line parse to the two items. */
  lemma {:induction false} BlankBetween(w1: string, a: string, w2: string, b: string)
    requires AllWhitespace(w1) && IsTrimmed(a) && a != ""
    requires AllWhitespace(w2) && IsTrimmed(b) && b != ""
    ensures Seqs.Filter(NonEmpty, TrimAll([w1 + a, "", w2 + b])) == [a, b]
  {
    var first, rest := [w1 + a], ["", w2 + b];
    assert [w1 + a, "", w2 + b] == first + rest;
    NormaliseAppend(first, rest);
    NormaliseOne(w1, a);
    BlankThenItem(w2, b);
  }

  lemma {:induction false} BlankThenItem(w: string, b: string)
    requires AllWhitespace(w) && IsTrimmed(b) && b != ""
    ensures Seqs.Filter(NonEmpty, TrimAll(["", w + b])) == [b]
  {
    var blank: string := [];
    assert blank + blank == blank && ["", w + b] == [blank + blank] + [w + b];
    NormaliseAppend([blank + blank], [w + b]);
    NormaliseOne("", "");
    NormaliseOne(w, b);
  }

  /** Parsing the pieces of a split one after the other. */
  lemma {:induction false} NormaliseAppend(a: seq<string>, b: seq<string>)
    ensures Seqs.Filter(NonEmpty, TrimAll(a + b))
         == Seqs.Filter(NonEmpty, TrimAll(a)) + Seqs.Filter(NonEmpty, TrimAll(b))
  {
    TrimAllAppend(a, b);
    Seqs.FilterAppend(NonEmpty, TrimAll(a), TrimAll(b));
  }

  lemma {:induction false} TrimAllAppend(a: seq<string>, b: seq<string>)
    ensures TrimAll(a + b) == TrimAll(a) + TrimAll(b)
  {
    var whole := TrimAll(a + b);
    var left, right := TrimAll(a), TrimAll(b);
    assert |whole| == |left + right|;
    forall k | 0 <= k < |whole| ensures whole[k] == (left + right)[k] {
      if k < |a| {
        assert (a + b)[k] == a[k] && (left + right)[k] == left[k];
      } else {
        assert (a + b)[k] == b[k - |a|] && (left + right)[k] == right[k - |a|];
      }
    }
  }

  /** One piece of text: whitespace `lead` before a trimmed `item` parses to `item`, or to nothing. */
  lemma {:induction false} NormaliseOne(lead: string, item: string)
    requires AllWhitespace(lead) && IsTrimmed(item)
    ensures Seqs.Filter(NonEmpty, TrimAll([lead + item])) == if item == "" then [] else [item]
  {
    TrimAfterWhitespace(lead, item);
    assert TrimAll([lead + item]) == [item];
  }

  /** Joining list items with `sep` followed by padding whitespace (`', '` or `'\n'`),
      after any leading whitespace `lead`, parses back to the same items. */
  lemma {:induction false} ParseJoinAfter(lead: string, items: seq<string>, sep: char, pad: string)
    requires AllWhitespace(lead) && sep !in lead
    requires AllWhitespace(pad) && sep !in pad
    requires forall k :: 0 <= k < |items| ==> IsListItem(items[k], sep)
    ensures Seqs.Filter(NonEmpty, TrimAll(Split(lead + Join(items, [sep] + pad), sep))) == items
    decreases |items|
  {
    if |items| == 0 {
      assert lead + Join(items, [sep] + pad) == lead + "";
      SplitWithout(lead + "", sep);
      NormaliseOne(lead, "");
    } else if |items| == 1 {
      assert lead + Join(items, [sep] + pad) == lead + items[0];
      SplitWithout(lead + items[0], sep);
      NormaliseOne(lead, items[0]);
    } else {
      ParseJoinAfter(pad, items[1..], sep, pad);
      ParseJoinStep(lead, items, sep, pad);
    }
  }

  lemma {:induction false} ParseJoinStep(lead: string, items: seq<string>, sep: char, pad: string)
    requires AllWhitespace(lead) && sep !in lead
    requires |items| >= 2 && IsListItem(items[0], sep)
    requires Seqs.Filter(NonEmpty, TrimAll(Split(pad + Join(items[1..], [sep] + pad), sep))) == items[1..]
    ensures Seqs.Filter(NonEmpty, TrimAll(Split(lead + Join(items, [sep] + pad), sep))) == items
  {
    var first := lead + items[0];
    var rest := pad + Join(items[1..], [sep] + pad);
    var whole := lead + Join(items, [sep] + pad);
    JoinFirst(lead, items, sep, pad);
    assert sep !in first;
    SplitAtSeparator(first, rest, sep);
    assert Split(whole, sep) == [first] + Split(rest, sep);
    NormaliseCons(lead, items, Split(rest, sep));
  }

  /** The text of a join, cut after its first item. */
  lemma {:induction false} JoinFirst(lead: string, items: seq<string>, sep: char, pad: string)
    requires |items| >= 2
    ensures lead + Join(items, [sep] + pad)
         == (lead + items[0]) + [sep] + (pad + Join(items[1..], [sep] + pad))
  {
  }

  lemma {:induction false} NormaliseCons(lead: string, items: seq<string>, restParts: seq<string>)
    requires AllWhitespace(lead)
    requires |items| >= 1 && items[0] != "" && IsTrimmed(items[0])
    requires Seqs.Filter(NonEmpty, TrimAll(restParts)) == items[1..]
    ensures Seqs.Filter(NonEmpty, TrimAll([lead + items[0]] + restParts)) == items
  {
    NormaliseAppend([lead + items[0]], restParts);
    NormaliseOne(lead, items[0]);
    Seqs.HeadTail(items);
  }

  /** `join` as `openRecipeModal` writes a list, then `ParseList`, returns the list,
      provided its items are trimmed, non-empty and free of the separator. */
  lemma {:induction false} ParseListRoundTrip(items: seq<string>, sep: char, pad: string)
    requires AllWhitespace(pad) && sep !in pad
    requires forall k :: 0 <= k < |items| ==> IsListItem(items[k], sep)
    ensures ParseList(Join(items, [sep] + pad), sep) == items
  {
    ParseJoinAfter("", items, sep, pad);
    assert "" + Join(items, [sep] + pad) == Join(items, [sep] + pad);
  }

  /** Re-parsing a parsed and re-joined list changes nothing. */
  lemma {:induction false} ParseListStable(text: string, sep: char, pad: string)
    requires AllWhitespace(pad) && sep !in pad
    ensures ParseList(Join(ParseList(text, sep), [sep] + pad), sep) == ParseList(text, sep)
  {
    ParseListRoundTrip(ParseList(text, sep), sep, pad);
  }

  /** `parseInt(text, 10) || 0`: a field without a leading number reads as 0, and any
      number read is kept. */
  function ParseServings(text: string): (n: int)
    ensures |Numerals.LeadingDigits(Numerals.SignFree(TrimStart(text)))| == 0 ==> n == 0
    ensures Numerals.ParseInt(text).Some? ==> n == Numerals.ParseInt(text).value
  {
    Numerals.ParseInt(text).GetOr(0)
  }

  /** `recipeIdHidden.value || generateId(recipeNameInput.value)`, with the clock as `now`. */
  function ChooseId(form: RecipeForm, now: nat): (id: string)
    ensures id != ""
    ensures form.id != "" ==> id == form.id
    ensures form.id == "" ==> id == Ids.GenerateId(form.name, now)
  {
    if form.id != "" then form.id else Ids.GenerateId(form.name, now)
  }

  /** The record the submit handler builds (app.js:581-611). */
  function RecipeFromForm(form: RecipeForm, now: nat): (r: Recipe)
    ensures r.id == ChooseId(form, now) && r.id != ""
    ensures IsTrimmed(r.name) && IsTrimmed(r.cookTime) && IsTrimmed(r.notes)
    ensures r.name == Trim(form.name) && r.cookTime == Trim(form.cookTime) && r.notes == Trim(form.notes)
    ensures r.category == form.category
    ensures r.servings == ParseServings(form.servings)
    ensures r.tags == Some(ParseList(form.tags, ','))
    ensures r.ingredients == ParseList(form.ingredients, '\n')
    ensures r.steps == ParseList(form.steps, '\n')
    ensures forall k :: 0 <= k < |r.TagList()| ==> IsListItem(r.TagList()[k], ',')
    ensures forall k :: 0 <= k < |r.ingredients| ==> IsListItem(r.ingredients[k], '\n')
    ensures forall k :: 0 <= k < |r.steps| ==> IsListItem(r.steps[k], '\n')
  {
    Recipe(
      ChooseId(form, now),
      Trim(form.name),
      form.category,
      Trim(form.cookTime),
      ParseServings(form.servings),
      Some(ParseList(form.tags, ',')),
      ParseList(form.ingredients, '\n'),
      ParseList(form.steps, '\n'),
      Trim(form.notes))
  }

  /** The fields `openRecipeModal(recipe)` fills in for an edit (app.js:457-465): the
      text fields and the id as stored, servings shown with `|| 4`, and each list
      written out so that the form's parser reads it back. */
  function OpenEditForm(r: Recipe): (f: RecipeForm)
    ensures f.id == r.id && f.name == r.name && f.category == r.category
    ensures f.cookTime == r.cookTime && f.notes == r.notes
    ensures -Numerals.MaxSafeInteger <= r.servings <= Numerals.MaxSafeInteger ==>
              ParseServings(f.servings) == if r.servings == 0 then 4 else r.servings
    ensures (forall k :: 0 <= k < |r.TagList()| ==> IsListItem(r.TagList()[k], ',')) ==>
              ParseList(f.tags, ',') == r.TagList()
    ensures (forall k :: 0 <= k < |r.ingredients| ==> IsListItem(r.ingredients[k], '\n')) ==>
              ParseList(f.ingredients, '\n') == r.ingredients
    ensures (forall k :: 0 <= k < |r.steps| ==> IsListItem(r.steps[k], '\n')) ==>
              ParseList(f.steps, '\n') == r.steps
  {
    ShownServingsReadBack(r.servings);
    JoinedListsReadBack(r);
    RecipeForm(
      r.id,
      r.name,
      r.category,
      r.cookTime,
      Numerals.ShowInt(if r.servings == 0 then 4 else r.servings),
      Join(r.TagList(), ", "),
      Join(r.ingredients, "\n"),
      Join(r.steps, "\n"),
      r.notes)
  }

  lemma {:induction false} ShownServingsReadBack(servings: int)
    ensures -Numerals.MaxSafeInteger <= servings <= Numerals.MaxSafeInteger ==>
              ParseServings(Numerals.ShowInt(if servings == 0 then 4 else servings))
              == if servings == 0 then 4 else servings
  {
    if -Numerals.MaxSafeInteger <= servings <= Numerals.MaxSafeInteger {
      Numerals.ParseShowInt(if servings == 0 then 4 else servings);
    }
  }

  lemma {:induction false} JoinedListsReadBack(r: Recipe)
    ensures (forall k :: 0 <= k < |r.TagList()| ==> IsListItem(r.TagList()[k], ',')) ==>
              ParseList(Join(r.TagList(), ", "), ',') == r.TagList()
    ensures (forall k :: 0 <= k < |r.ingredients| ==> IsListItem(r.ingredients[k], '\n')) ==>
              ParseList(Join(r.ingredients, "\n"), '\n') == r.ingredients
    ensures (forall k :: 0 <= k < |r.steps| ==> IsListItem(r.steps[k], '\n')) ==>
              ParseList(Join(r.steps, "\n"), '\n') == r.steps
  {
    Glues();
    if forall k :: 0 <= k < |r.TagList()| ==> IsListItem(r.TagList()[k], ',') {
      ParseListRoundTrip(r.TagList(), ',', " ");
    }
    if forall k :: 0 <= k < |r.ingredients| ==> IsListItem(r.ingredients[k], '\n') {
      ParseListRoundTrip(r.ingredients, '\n', "");
    }
    if forall k :: 0 <= k < |r.steps| ==> IsListItem(r.steps[k], '\n') {
      ParseListRoundTrip(r.steps, '\n', "");
    }
  }

  /** No character a single-line text input removes. */
  predicate IsSingleLine(s: string) {
    '\n' !in s && '\r' !in s
  }

  /** A recipe in the shape the submit handler stores. Its one-line fields (name, cook
      time, tags) have no line breaks, which a text input drops, and its multi-line fields
      (notes, ingredients, steps) no carriage return, which a text area turns into `\n`. */
  predicate IsNormalised(r: Recipe) {
    && IsSingleLine(r.name) && IsSingleLine(r.cookTime)
    && (forall k :: 0 <= k < |r.TagList()| ==> IsSingleLine(r.TagList()[k]))
    && '\r' !in r.notes
    && (forall k :: 0 <= k < |r.ingredients| ==> '\r' !in r.ingredients[k])
    && (forall k :: 0 <= k < |r.steps| ==> '\r' !in r.steps[k])
    && r.id != ""
    && IsTrimmed(r.name) && IsTrimmed(r.cookTime) && IsTrimmed(r.notes)
    && r.servings != 0 && -Numerals.MaxSafeInteger <= r.servings <= Numerals.MaxSafeInteger
    && r.tags.Some?
    && (forall k :: 0 <= k < |r.TagList()| ==> IsListItem(r.TagList()[k], ','))
    && (forall k :: 0 <= k < |r.ingredients| ==> IsListItem(r.ingredients[k], '\n'))
    && (forall k :: 0 <= k < |r.steps| ==> IsListItem(r.steps[k], '\n'))
  }

  /** Opening a normalised recipe for editing and saving it unchanged rebuilds the same recipe. */
  lemma {:induction false} EditRoundTrip(r: Recipe, now: nat)
    requires IsNormalised(r)
    ensures RecipeFromForm(OpenEditForm(r), now) == r
  {
    var f := OpenEditForm(r);
    assert ParseServings(f.servings) == r.servings;
  }

  /** The separators `openRecipeModal` joins with, as a separator character and padding. */
  lemma {:induction false} Glues()
    ensures [','] + " " == ", "
    ensures ['\n'] + "" == "\n"
  {
  }

  /** The two places where an unchanged edit does alter a recipe: zero servings come
      back as 4 (the form's `|| 4`), and missing tags come back as an empty list. */
  lemma {:induction false} EditFillsDefaults(r: Recipe, now: nat)
    ensures r.servings == 0 ==> RecipeFromForm(OpenEditForm(r), now).servings == 4
    ensures r.tags.None? ==> RecipeFromForm(OpenEditForm(r), now).tags == Some([])
  {
    var f := OpenEditForm(r);
    assert r.tags.None? ==> r.TagList() == [];
  }

  /** The servings field `openRecipeModal` fills in for a recipe without servings reads back as 4. */
  lemma {:induction false} DefaultServings()
    ensures ParseServings(Numerals.ShowInt(4)) == 4
  {
    Numerals.ParseShowInt(4);
  }

  /** A new "Soup" with two ingredients and two steps, as typed into the empty form. */
  const SoupForm := RecipeForm("", "Soup", "Dinner", "", "4", "", "Water\nSalt", "Boil\nSeason", "")

  /** Submitting `SoupForm` stores a recipe with a generated id, 4 servings, and the
      ingredients and steps in the order typed. */
  lemma {:induction false} SoupScenario(now: nat)
    ensures RecipeFromForm(SoupForm, now).id != ""
    ensures RecipeFromForm(SoupForm, now).name == "Soup"
    ensures RecipeFromForm(SoupForm, now).servings == 4
    ensures RecipeFromForm(SoupForm, now).ingredients == ["Water", "Salt"]
    ensures RecipeFromForm(SoupForm, now).steps == ["Boil", "Season"]
  {
    DefaultServings();
    assert Numerals.ShowInt(4) == "4";
    assert IsTrimmed("Soup");
    SoupIngredients();
    SoupSteps();
  }

  lemma {:induction false} SoupIngredients()
    ensures ParseList("Water\nSalt", '\n') == ["Water", "Salt"]
  {
    assert "Water" + "\n" + "Salt" == "Water\nSalt";
    assert IsListItem("Water", '\n') && IsListItem("Salt", '\n');
    TwoLines("Water", "Salt");
  }

  lemma {:induction false} SoupSteps()
    ensures ParseList("Boil\nSeason", '\n') == ["Boil", "Season"]
  {
    assert "Boil" + "\n" + "Season" == "Boil\nSeason";
    assert IsListItem("Boil", '\n') && IsListItem("Season", '\n');
    TwoLines("Boil", "Season");
  }

  lemma {:induction false} TwoLines(a: string, b: string)
    requires IsListItem(a, '\n') && IsListItem(b, '\n')
    ensures ParseList(a + "\n" + b, '\n') == [a, b]
  {
    ParseListRoundTrip([a, b], '\n', "");
    assert ['\n'] + "" == "\n";
  }
}

=== FILE: ids.dfy ===
/** Recipe ids as `generateId` builds them: a slug of the name, a hyphen, and the
    creation time in base 36 (app.js:165-171). The clock is a parameter. */
module Ids {
  import opened Text
  import Seqs
  import Numerals

  /** `[a-z0-9]`: the characters a slug keeps. */
  predicate IsLowerAlnum(c: char) {
    'a' <= c <= 'z' || '0' <= c <= '9'
  }

  ghost predicate NoDoubleHyphen(s: string) {
    forall i, j :: 0 <= i < j < |s| && j == i + 1 ==> !(s[i] == '-' && s[j] == '-')
  }

  /** Lower-case letters, digits and single hyphens, with no hyphen at either end. */
  ghost predicate IsSlug(s: string) {
    && (forall k :: 0 <= k < |s| ==> IsLowerAlnum(s[k]) || s[k] == '-')
    && NoDoubleHyphen(s)
    && (|s| > 0 ==> s[0] != '-' && s[|s| - 1] != '-')
  }

  predicate IsSeparator(c: char) {
    !IsLowerAlnum(c)
  }

  predicate IsHyphen(c: char) {
    c == '-'
  }

  /** Drops the run of characters outside `[a-z0-9]` at the front of `s`. */
  function DropRun(s: string): string {
    s[Seqs.PrefixWhile(IsSeparator, s)..]
  }

  /** `.replace(/[^a-z0-9]+/g, '-')`: every maximal run of characters outside
      `[a-z0-9]` becomes one hyphen. */
  function CollapseRuns(s: string): (r: string)
    ensures forall k :: 0 <= k < |r| ==> IsLowerAlnum(r[k]) || r[k] == '-'
    ensures NoDoubleHyphen(r)
    ensures |s| == 0 <==> |r| == 0
    ensures |s| > 0 && IsLowerAlnum(s[0]) ==> r[0] == s[0]
    decreases |s|
  {
    if |s| == 0 then ""
    else if IsLowerAlnum(s[0]) then [s[0]] + CollapseRuns(s[1..])
    else
      var d := DropRun(s[1..]);
      assert |d| == 0 || IsLowerAlnum(d[0]);
      "-" + CollapseRuns(d)
  }

  /** `.replace(/^-+|-+$/g, '')`: the hyphens at both ends removed. */
  function StripHyphens(s: string): (r: string)
    ensures |r| == 0 || (!IsHyphen(r[0]) && !IsHyphen(r[|r| - 1]))
    ensures |r| <= |s|
  {
    var i := Seqs.PrefixWhile(IsHyphen, s);
    s[i..i + Seqs.SuffixWhile(IsHyphen, s[i..])]
  }

  /** The slug part of a generated id. */
  function Slug(name: string): (r: string)
    ensures IsSlug(r)
  {
    var c := CollapseRuns(Lower(name));
    StripGivesSlug(c);
    StripHyphens(c)
  }

  lemma {:induction false} SliceKeepsShape(s: string, a: nat, b: nat)
    requires a <= b <= |s|
    requires forall k :: 0 <= k < |s| ==> IsLowerAlnum(s[k]) || s[k] == '-'
    requires NoDoubleHyphen(s)
    ensures forall k :: 0 <= k < |s[a..b]| ==> IsLowerAlnum(s[a..b][k]) || s[a..b][k] == '-'
    ensures NoDoubleHyphen(s[a..b])
  {
    var t := s[a..b];
    forall i, j | 0 <= i < j < |t| && j == i + 1 ensures !(t[i] == '-' && t[j] == '-') {
      assert t[i] == s[a + i] && t[j] == s[a + j];
    }
  }

  /** Cutting the hyphens off both ends of collapsed text leaves a slug. */
  lemma {:induction false} StripGivesSlug(c: string)
    requires forall k :: 0 <= k < |c| ==> IsLowerAlnum(c[k]) || c[k] == '-'
    requires NoDoubleHyphen(c)
    ensures IsSlug(StripHyphens(c))
  {
    var i := Seqs.PrefixWhile(IsHyphen, c);
    var t := c[i..];
    var j := Seqs.SuffixWhile(IsHyphen, t);
    var r := c[i..i + j];
    SliceKeepsShape(c, i, i + j);
    assert StripHyphens(c) == r;
    if |r| > 0 {
      assert r[0] == c[i];
      assert r[|r| - 1] == t[j - 1];
    }
  }

  /** A slug-shaped text is its own slug, so a slug is never changed by slugging it again. */
  lemma {:induction false} SlugOfSlug(s: string)
    requires IsSlug(s)
    ensures Slug(s) == s
  {
    LowerKeepsSlug(s);
    CollapseKeepsSlug(s);
    assert Seqs.PrefixWhile(IsHyphen, s) == 0;
    assert Seqs.SuffixWhile(IsHyphen, s) == |s|;
    assert s[0..|s|] == s;
  }

  lemma {:induction false} LowerKeepsSlug(s: string)
    requires forall k :: 0 <= k < |s| ==> IsLowerAlnum(s[k]) || s[k] == '-'
    ensures Lower(s) == s
  {
    forall k | 0 <= k < |s| ensures Lower(s)[k] == s[k] {
      assert LowerChar(s[k]) == s[k];
    }
  }

  lemma {:induction false} CollapseKeepsSlug(s: string)
    requires forall k :: 0 <= k < |s| ==> IsLowerAlnum(s[k]) || s[k] == '-'
    requires NoDoubleHyphen(s)
    requires |s| > 0 ==> s[0] != '-' || |s| == 1 || IsLowerAlnum(s[1])
    ensures CollapseRuns(s) == s
    decreases |s|
  {
    if |s| > 0 {
      CollapseKeepsSlug(s[1..]);
      if !IsLowerAlnum(s[0]) {
        assert DropRun(s[1..]) == s[1..];
      }
      assert [s[0]] + s[1..] == s;
    }
  }

  /** Slugging keeps exactly the letters and digits of the lower-cased name, in order. */
  lemma {:induction false} SlugKeepsAlnum(name: string)
    ensures Seqs.Filter(IsLowerAlnum, Slug(name)) == Seqs.Filter(IsLowerAlnum, Lower(name))
  {
    var c := CollapseRuns(Lower(name));
    assert Slug(name) == StripHyphens(c);
    CollapseKeepsAlnum(Lower(name));
    StripKeepsAlnum(c);
  }

  /** Cutting hyphens off the ends loses no letter or digit. */
  lemma {:induction false} StripKeepsAlnum(c: string)
    ensures Seqs.Filter(IsLowerAlnum, StripHyphens(c)) == Seqs.Filter(IsLowerAlnum, c)
  {
    var i := Seqs.PrefixWhile(IsHyphen, c);
    var t := c[i..];
    var j := Seqs.SuffixWhile(IsHyphen, t);
    assert StripHyphens(c) == t[..j];
    FrontHyphensKeepNothing(c, i);
    BackHyphensKeepNothing(t, j);
  }

  lemma {:induction false} FrontHyphensKeepNothing(c: string, i: nat)
    requires i <= |c| && forall k :: 0 <= k < i ==> c[k] == '-'
    ensures Seqs.Filter(IsLowerAlnum, c) == Seqs.Filter(IsLowerAlnum, c[i..])
  {
    Seqs.SplitAt(c, i);
    Seqs.FilterAppend(IsLowerAlnum, c[..i], c[i..]);
    NoneKept(c[..i]);
  }

  lemma {:induction false} BackHyphensKeepNothing(t: string, j: nat)
    requires j <= |t| && forall k :: j <= k < |t| ==> t[k] == '-'
    ensures Seqs.Filter(IsLowerAlnum, t) == Seqs.Filter(IsLowerAlnum, t[..j])
  {
    Seqs.SplitAt(t, j);
    Seqs.FilterAppend(IsLowerAlnum, t[..j], t[j..]);
    NoneKept(t[j..]);
  }

  lemma {:induction false} NoneKept(s: string)
    requires forall k :: 0 <= k < |s| ==> !IsLowerAlnum(s[k])
    ensures Seqs.Filter(IsLowerAlnum, s) == []
    decreases |s|
  {
    if |s| > 0 {
      NoneKept(s[1..]);
    }
  }

  lemma {:induction false} CollapseKeepsAlnum(s: string)
    ensures Seqs.Filter(IsLowerAlnum, CollapseRuns(s)) == Seqs.Filter(IsLowerAlnum, s)
    decreases |s|
  {
    if |s| > 0 {
      if IsLowerAlnum(s[0]) {
        CollapseKeepsAlnum(s[1..]);
        CollapseAlnumHead(s);
      } else {
        var d := DropRun(s[1..]);
        CollapseKeepsAlnum(d);
        CollapseRunHead(s, d);
      }
    }
  }

  lemma {:induction false} CollapseAlnumHead(s: string)
    requires |s| > 0 && IsLowerAlnum(s[0])
    requires Seqs.Filter(IsLowerAlnum, CollapseRuns(s[1..])) == Seqs.Filter(IsLowerAlnum, s[1..])
    ensures Seqs.Filter(IsLowerAlnum, CollapseRuns(s)) == Seqs.Filter(IsLowerAlnum, s)
  {
    assert CollapseRuns(s) == [s[0]] + CollapseRuns(s[1..]);
    Seqs.FilterAppend(IsLowerAlnum, [s[0]], CollapseRuns(s[1..]));
    Seqs.HeadTail(s);
    Seqs.FilterAppend(IsLowerAlnum, [s[0]], s[1..]);
  }

  lemma {:induction false} CollapseRunHead(s: string, d: string)
    requires |s| > 0 && !IsLowerAlnum(s[0]) && d == DropRun(s[1..])
    requires Seqs.Filter(IsLowerAlnum, CollapseRuns(d)) == Seqs.Filter(IsLowerAlnum, d)
    ensures Seqs.Filter(IsLowerAlnum, CollapseRuns(s)) == Seqs.Filter(IsLowerAlnum, s)
  {
    HyphenKeepsNothing(s, d);
    RunKeepsNothing(s[1..]);
    SeparatorKeepsNothing(s);
  }

  lemma {:induction false} HyphenKeepsNothing(s: string, d: string)
    requires |s| > 0 && !IsLowerAlnum(s[0]) && d == DropRun(s[1..])
    ensures Seqs.Filter(IsLowerAlnum, CollapseRuns(s)) == Seqs.Filter(IsLowerAlnum, CollapseRuns(d))
  {
    assert CollapseRuns(s) == "-" + CollapseRuns(d);
    Seqs.FilterAppend(IsLowerAlnum, "-", CollapseRuns(d));
    NoneKept("-");
  }

  lemma {:induction false} RunKeepsNothing(t: string)
    ensures Seqs.Filter(IsLowerAlnum, t) == Seqs.Filter(IsLowerAlnum, DropRun(t))
  {
    var n := Seqs.PrefixWhile(IsSeparator, t);
    Seqs.SplitAt(t, n);
    Seqs.FilterAppend(IsLowerAlnum, t[..n], t[n..]);
    NoneKept(t[..n]);
  }

  lemma {:induction false} SeparatorKeepsNothing(s: string)
    requires |s| > 0 && !IsLowerAlnum(s[0])
    ensures Seqs.Filter(IsLowerAlnum, s) == Seqs.Filter(IsLowerAlnum, s[1..])
  {
    Seqs.HeadTail(s);
    Seqs.FilterAppend(IsLowerAlnum, [s[0]], s[1..]);
    NoneKept([s[0]]);
  }

  /** Lower-casing works character by character, so it distributes over concatenation. */
  lemma {:induction false} LowerAppend(x: string, w: string, y: string)
    ensures Lower(x + w + y) == Lower(x) + Lower(w) + Lower(y)
  {
    var l := Lower(x) + Lower(w) + Lower(y);
    forall k | 0 <= k < |x + w + y| ensures Lower(x + w + y)[k] == l[k] {
      if k < |x| {
        assert (x + w + y)[k] == x[k];
      } else if k < |x| + |w| {
        assert (x + w + y)[k] == w[k - |x|];
      } else {
        assert (x + w + y)[k] == y[k - |x| - |w|];
      }
    }
  }

  /** Collapsing keeps a final letter or digit at the end. */
  lemma {:induction false} CollapseLast(s: string)
    requires |s| > 0 && IsLowerAlnum(s[|s| - 1])
    ensures |CollapseRuns(s)| > 0 && CollapseRuns(s)[|CollapseRuns(s)| - 1] == s[|s| - 1]
    decreases |s|
  {
    if IsLowerAlnum(s[0]) {
      if |s| > 1 {
        CollapseLast(s[1..]);
      }
    } else {
      var d := DropRun(s[1..]);
      DropRunKeepsLast(s[1..]);
      CollapseLast(d);
    }
  }

  /** A run dropped from text ending in a letter or digit leaves a non-empty suffix with the same end. */
  lemma {:induction false} DropRunKeepsLast(t: string)
    requires |t| > 0 && IsLowerAlnum(t[|t| - 1])
    ensures var d := DropRun(t); |d| > 0 && d[|d| - 1] == t[|t| - 1]
  {
    Seqs.PrefixWhileStops(IsSeparator, t);
  }

  /** Dropping the run at the front of `t + v` when it ends inside `t`. */
  lemma {:induction false} DropRunAppend(t: string, v: string)
    requires |t| > 0 && IsLowerAlnum(t[|t| - 1])
    ensures DropRun(t + v) == DropRun(t) + v
  {
    Seqs.PrefixWhileStops(IsSeparator, t);
    Seqs.PrefixWhileAppend(IsSeparator, t, v);
  }

  /** Dropping a whole run followed by text that starts with a letter or digit. */
  lemma {:induction false} DropRunWhole(u: string, b: string)
    requires forall k :: 0 <= k < |u| ==> IsSeparator(u[k])
    requires |b| == 0 || IsLowerAlnum(b[0])
    ensures DropRun(u + b) == b
  {
    Seqs.PrefixWhileAll(IsSeparator, u);
    Seqs.PrefixWhileAppend(IsSeparator, u, b);
  }

  lemma {:induction false} CollapseSeparatorHead(s: string)
    requires |s| > 0 && !IsLowerAlnum(s[0])
    ensures CollapseRuns(s) == "-" + CollapseRuns(DropRun(s[1..]))
  {
  }

  lemma {:induction false} CollapseAlnumHeadIs(s: string)
    requires |s| > 0 && IsLowerAlnum(s[0])
    ensures CollapseRuns(s) == [s[0]] + CollapseRuns(s[1..])
  {
  }

  /** A non-empty run of characters outside `[a-z0-9]` between a part that ends in a letter
      or digit and one that starts with one becomes exactly one hyphen. */
  lemma {:induction false} CollapseSplit(a: string, u: string, b: string)
    requires |a| == 0 || IsLowerAlnum(a[|a| - 1])
    requires |u| > 0 && forall k :: 0 <= k < |u| ==> IsSeparator(u[k])
    requires |b| == 0 || IsLowerAlnum(b[0])
    ensures CollapseRuns(a + u + b) == CollapseRuns(a) + "-" + CollapseRuns(b)
    decreases |a|
  {
    if |a| == 0 {
      CollapseSplitEmpty(a, u, b);
    } else if IsLowerAlnum(a[0]) {
      CollapseSplit(a[1..], u, b);
      CollapseSplitAlnum(a, u, b);
    } else {
      var d := DropRun(a[1..]);
      DropRunKeepsLast(a[1..]);
      CollapseSplit(d, u, b);
      CollapseSplitSeparator(a, u, b, d);
    }
  }

  lemma {:induction false} CollapseSplitEmpty(a: string, u: string, b: string)
    requires |a| == 0
    requires |u| > 0 && forall k :: 0 <= k < |u| ==> IsSeparator(u[k])
    requires |b| == 0 || IsLowerAlnum(b[0])
    ensures CollapseRuns(a + u + b) == CollapseRuns(a) + "-" + CollapseRuns(b)
  {
    assert a + u + b == u + b;
    SeparatorRunBefore(u, b);
    assert CollapseRuns(a) + "-" == "-";
  }

  /** A run of separators in front of a letter or digit collapses to one hyphen. */
  lemma {:induction false} SeparatorRunBefore(u: string, b: string)
    requires |u| > 0 && forall k :: 0 <= k < |u| ==> IsSeparator(u[k])
    requires |b| == 0 || IsLowerAlnum(b[0])
    ensures CollapseRuns(u + b) == "-" + CollapseRuns(b)
  {
    assert (u + b)[1..] == u[1..] + b;
    CollapseSeparatorHead(u + b);
    DropRunWhole(u[1..], b);
  }

  lemma {:induction false} CollapseSplitAlnum(a: string, u: string, b: string)
    requires |a| > 0 && IsLowerAlnum(a[0])
    requires CollapseRuns(a[1..] + u + b) == CollapseRuns(a[1..]) + "-" + CollapseRuns(b)
    ensures CollapseRuns(a + u + b) == CollapseRuns(a) + "-" + CollapseRuns(b)
  {
    var v := u + b;
    assert a + u + b == a + v && a[1..] + u + b == a[1..] + v;
    AlnumBeforeRest(a, v);
    CollapseAlnumHeadIs(a);
    RegroupAfter([a[0]], CollapseRuns(a[1..]), CollapseRuns(b));
  }

  lemma {:induction false} AlnumBeforeRest(a: string, v: string)
    requires |a| > 0 && IsLowerAlnum(a[0])
    ensures CollapseRuns(a + v) == [a[0]] + CollapseRuns(a[1..] + v)
  {
    assert (a + v)[1..] == a[1..] + v;
    CollapseAlnumHeadIs(a + v);
  }

  lemma {:induction false} RegroupAfter(head: string, left: string, right: string)
    ensures head + (left + "-" + right) == (head + left) + "-" + right
  {
  }

  lemma {:induction false} CollapseSplitSeparator(a: string, u: string, b: string, d: string)
    requires |a| > 0 && !IsLowerAlnum(a[0]) && IsLowerAlnum(a[|a| - 1])
    requires d == DropRun(a[1..])
    requires CollapseRuns(d + u + b) == CollapseRuns(d) + "-" + CollapseRuns(b)
    ensures CollapseRuns(a + u + b) == CollapseRuns(a) + "-" + CollapseRuns(b)
  {
    var v := u + b;
    assert a + u + b == a + v && d + v == d + u + b;
    CollapseAfterHead(a, v);
    CollapseSeparatorHead(a);
    RegroupAfter("-", CollapseRuns(d), CollapseRuns(b));
  }

  lemma {:induction false} CollapseAfterHead(a: string, v: string)
    requires |a| > 0 && !IsLowerAlnum(a[0]) && IsLowerAlnum(a[|a| - 1])
    ensures CollapseRuns(a + v) == "-" + CollapseRuns(DropRun(a[1..]) + v)
  {
    DropRunPastHead(a, v);
    CollapseSeparatorHead(a + v);
  }


  lemma {:induction false} DropRunPastHead(a: string, v: string)
    requires |a| > 1 && IsLowerAlnum(a[|a| - 1])
    ensures DropRun((a + v)[1..]) == DropRun(a[1..]) + v
  {
    assert a[1..][|a[1..]| - 1] == a[|a| - 1];
    assert (a + v)[1..] == a[1..] + v;
    DropRunAppend(a[1..], v);
  }

  /** Cutting the end hyphens of two collapsed parts joined by a hyphen keeps that hyphen. */
  lemma {:induction false} StripJoin(p: string, q: string)
    requires |p| > 0 && IsLowerAlnum(p[|p| - 1])
    requires |q| > 0 && IsLowerAlnum(q[0])
    ensures StripHyphens(p + "-" + q) == StripHyphens(p) + "-" + StripHyphens(q)
  {
    var i := Seqs.PrefixWhile(IsHyphen, p);
    var j := Seqs.SuffixWhile(IsHyphen, q);
    StripJoinFront(p, q, i);
    StripJoinBack(p[i..], q, j);
    StripFront(p, i);
    StripBack(q, j);
  }

  /** The hyphens cut from the front of `p + "-" + q` are those at the front of `p`. */
  lemma {:induction false} StripJoinFront(p: string, q: string, i: nat)
    requires |p| > 0 && IsLowerAlnum(p[|p| - 1]) && i == Seqs.PrefixWhile(IsHyphen, p)
    ensures i < |p|
    ensures StripHyphens(p + "-" + q) == StripHyphens(p[i..] + "-" + q)
  {
    Seqs.PrefixWhileStops(IsHyphen, p);
    var whole := p + ("-" + q);
    assert p + "-" + q == whole;
    Seqs.PrefixWhileAppend(IsHyphen, p, "-" + q);
    assert whole[i..] == p[i..] + "-" + q;
    var rest := p[i..] + "-" + q;
    assert Seqs.PrefixWhile(IsHyphen, rest) == 0;
    assert rest[0..] == rest;
  }

  /** With no hyphen at the front, cutting the back of `r + "-" + q` only cuts the back of `q`. */
  lemma {:induction false} StripJoinBack(r: string, q: string, j: nat)
    requires |r| > 0 && !IsHyphen(r[0])
    requires |q| > 0 && IsLowerAlnum(q[0]) && j == Seqs.SuffixWhile(IsHyphen, q)
    ensures StripHyphens(r + "-" + q) == r + "-" + q[..j]
  {
    Seqs.SuffixWhileStops(IsHyphen, q);
    Seqs.SuffixWhileAppend(IsHyphen, "-", q);
    var whole := r + ("-" + q);
    assert r + "-" + q == whole;
    Seqs.SuffixWhileAppend(IsHyphen, r, "-" + q);
    assert Seqs.PrefixWhile(IsHyphen, whole) == 0;
    assert whole[0..] == whole;
  }

  lemma {:induction false} StripFront(p: string, i: nat)
    requires |p| > 0 && IsLowerAlnum(p[|p| - 1]) && i == Seqs.PrefixWhile(IsHyphen, p)
    ensures StripHyphens(p) == p[i..]
  {
    Seqs.PrefixWhileStops(IsHyphen, p);
    assert p[i..][|p[i..]| - 1] == p[|p| - 1];
  }

  lemma {:induction false} StripBack(q: string, j: nat)
    requires |q| > 0 && IsLowerAlnum(q[0]) && j == Seqs.SuffixWhile(IsHyphen, q)
    ensures StripHyphens(q) == q[..j]
  {
    assert Seqs.PrefixWhile(IsHyphen, q) == 0;
    assert q[0..] == q;
  }

  /** `generateId`'s first `replace`, seen from outside: a name made of a part ending in a
      letter or digit, a run of other characters and a part starting with a letter or digit
      is slugged to the two parts' slugs joined by one hyphen. */
  lemma {:induction false} SlugSplit(x: string, w: string, y: string)
    requires |x| > 0 && IsLowerAlnum(LowerChar(x[|x| - 1]))
    requires |w| > 0 && forall k :: 0 <= k < |w| ==> !IsLowerAlnum(LowerChar(w[k]))
    requires |y| > 0 && IsLowerAlnum(LowerChar(y[0]))
    ensures Slug(x + w + y) == Slug(x) + "-" + Slug(y)
  {
    var a, u, b := Lower(x), Lower(w), Lower(y);
    LowerAppend(x, w, y);
    CollapseSplit(a, u, b);
    CollapseLast(a);
    StripJoin(CollapseRuns(a), CollapseRuns(b));
  }

  /** Collapsing a text that ends in a letter or digit finishes every run inside it, so
      whatever follows is collapsed on its own. */
  lemma {:induction false} CollapseConcat(a: string, b: string)
    requires |a| == 0 || IsLowerAlnum(a[|a| - 1])
    ensures CollapseRuns(a + b) == CollapseRuns(a) + CollapseRuns(b)
    decreases |a|
  {
    if |a| == 0 {
      assert a + b == b;
    } else if IsLowerAlnum(a[0]) {
      CollapseConcat(a[1..], b);
      AlnumBeforeRest(a, b);
      CollapseAlnumHeadIs(a);
      RegroupConcat([a[0]], CollapseRuns(a[1..]), CollapseRuns(b));
    } else {
      var d := DropRun(a[1..]);
      DropRunKeepsLast(a[1..]);
      CollapseConcat(d, b);
      CollapseAfterHead(a, b);
      CollapseSeparatorHead(a);
      RegroupConcat("-", CollapseRuns(d), CollapseRuns(b));
    }
  }

  lemma {:induction false} RegroupConcat(head: string, left: string, right: string)
    ensures head + (left + right) == (head + left) + right
  {
  }

  /** Cutting the end hyphens of two parts that meet at letters or digits cuts only the
      front of the first and the back of the second. */
  lemma {:induction false} StripConcat(p: string, q: string)
    requires |p| > 0 && IsLowerAlnum(p[|p| - 1])
    requires |q| > 0 && IsLowerAlnum(q[0])
    ensures StripHyphens(p + q) == StripHyphens(p) + StripHyphens(q)
  {
    var i := Seqs.PrefixWhile(IsHyphen, p);
    var j := Seqs.SuffixWhile(IsHyphen, q);
    StripConcatFront(p, q, i);
    StripConcatBack(p[i..], q, j);
    StripFront(p, i);
    StripBack(q, j);
  }

  lemma {:induction false} StripConcatFront(p: string, q: string, i: nat)
    requires |p| > 0 && IsLowerAlnum(p[|p| - 1]) && i == Seqs.PrefixWhile(IsHyphen, p)
    ensures i < |p|
    ensures StripHyphens(p + q) == StripHyphens(p[i..] + q)
  {
    Seqs.PrefixWhileStops(IsHyphen, p);
    Seqs.PrefixWhileAppend(IsHyphen, p, q);
    assert (p + q)[i..] == p[i..] + q;
    var rest := p[i..] + q;
    assert Seqs.PrefixWhile(IsHyphen, rest) == 0;
    assert rest[0..] == rest;
  }

  lemma {:induction false} StripConcatBack(r: string, q: string, j: nat)
    requires |r| > 0 && !IsHyphen(r[0])
    requires |q| > 0 && IsLowerAlnum(q[0]) && j == Seqs.SuffixWhile(IsHyphen, q)
    ensures StripHyphens(r + q) == r + q[..j]
  {
    Seqs.SuffixWhileStops(IsHyphen, q);
    Seqs.SuffixWhileAppend(IsHyphen, r, q);
    var whole := r + q;
    assert Seqs.PrefixWhile(IsHyphen, whole) == 0;
    assert whole[0..] == whole;
    assert whole[..|r| + j] == r + q[..j];
  }

  /** Letters and digits that meet in a name stay together in its slug: the slug of a
      name that is cut between two of them is the two pieces' slugs, side by side. */
  lemma {:induction false} SlugConcat(x: string, y: string)
    requires |x| > 0 && IsLowerAlnum(LowerChar(x[|x| - 1]))
    requires |y| > 0 && IsLowerAlnum(LowerChar(y[0]))
    ensures Slug(x + y) == Slug(x) + Slug(y)
  {
    var a, b := Lower(x), Lower(y);
    LowerConcat(x, y);
    CollapseConcat(a, b);
    CollapseLast(a);
    StripConcat(CollapseRuns(a), CollapseRuns(b));
  }

  lemma {:induction false} LowerConcat(x: string, y: string)
    ensures Lower(x + y) == Lower(x) + Lower(y)
  {
    var l := Lower(x) + Lower(y);
    forall k | 0 <= k < |x + y| ensures Lower(x + y)[k] == l[k] {
      if k < |x| {
        assert (x + y)[k] == x[k];
      } else {
        assert (x + y)[k] == y[k - |x|];
      }
    }
  }

  /** `generateId(name)` with `Date.now()` passed in as `now`: never empty, and its
      name slug and creation time can be read back from it. */
  function GenerateId(name: string, now: nat): (id: string)
    ensures |id| > 0
    ensures BeforeLastHyphen(id) == Slug(name)
    ensures Numerals.FromRadix(AfterLastHyphen(id), 36) == now
    ensures AfterLastHyphen(id) == Numerals.ToRadix(now, 36)
    ensures id == Slug(name) + "-" + AfterLastHyphen(id)
    ensures forall k :: 0 <= k < |AfterLastHyphen(id)| ==> Numerals.IsDigit(AfterLastHyphen(id)[k], 36)
  {
    var stamp := Numerals.ToRadix(now, 36);
    StampHasNoHyphen(now);
    SplitAtLastHyphen(Slug(name), stamp);
    Numerals.RadixRoundTrip(now, 36);
    Slug(name) + "-" + stamp
  }

  /** The text after the last hyphen of `id` (all of `id` when it has none). */
  function AfterLastHyphen(id: string): string
    decreases |id|
  {
    if |id| == 0 || id[|id| - 1] == '-' then ""
    else AfterLastHyphen(id[..|id| - 1]) + [id[|id| - 1]]
  }

  /** The text before the last hyphen of `id` (empty when it has none). */
  function BeforeLastHyphen(id: string): string
    decreases |id|
  {
    if |id| == 0 then ""
    else if id[|id| - 1] == '-' then id[..|id| - 1]
    else BeforeLastHyphen(id[..|id| - 1])
  }

  lemma {:induction false} SplitAtLastHyphen(a: string, b: string)
    requires '-' !in b
    ensures AfterLastHyphen(a + "-" + b) == b
    ensures BeforeLastHyphen(a + "-" + b) == a
    decreases |b|
  {
    var id := a + "-" + b;
    if |b| == 0 {
      assert id[..|id| - 1] == a;
    } else {
      assert id[..|id| - 1] == a + "-" + b[..|b| - 1];
      SplitAtLastHyphen(a, b[..|b| - 1]);
      assert b[..|b| - 1] + [b[|b| - 1]] == b;
    }
  }

  /** A base-36 time stamp holds no hyphen. */
  lemma {:induction false} StampHasNoHyphen(now: nat)
    ensures '-' !in Numerals.ToRadix(now, 36)
  {
    var stamp := Numerals.ToRadix(now, 36);
    forall k | 0 <= k < |stamp| ensures stamp[k] != '-' {
      assert Numerals.IsDigit(stamp[k], 36);
    }
  }
}

=== FILE: model.dfy ===
/** The app's state, made explicit: the module-level variables of app.js:117-127
    gathered into one immutable record. */
module Model {
  import opened Wrappers

  /** A stored recipe. `tags` may be missing from stored data, which the app reads as `[]`. */
  datatype Recipe = Recipe(
    id: string,
    name: string,
    category: string,
    cookTime: string,
    servings: int,
    tags: Option<seq<string>>,
    ingredients: seq<string>,
    steps: seq<string>,
    notes: string)
  {
    /** `r.tags || []` */
    function TagList(): seq<string> {
      tags.GetOr([])
    }
  }

  /** Cook mode: whether it is on, and the step shown. */
  datatype CookMode = CookMode(enabled: bool, index: int)

  /** Cook mode switched off, back at the first step. */
  const Stopped := CookMode(false, 0)

  datatype AppState = AppState(
    recipes: seq<Recipe>,
    favourites: seq<string>,
    currentRecipeId: Option<string>,
    activeCategory: string,
    showFavouritesOnly: bool,
    cookMode: CookMode)
}

=== FILE: numerals.dfy ===
/** Integer/text conversions: `Number.prototype.toString(radix)` for non-negative
    integers, `String(n)` and `parseInt(s, 10)`. */
module Numerals {
  import opened Wrappers
  import opened Text
  import Seqs

  /** The value of `c` as a digit: `0`-`9` then `a`-`z`; 36 for any other character. */
  function DigitValue(c: char): (d: nat)
    ensures d <= 36
  {
    if '0' <= c <= '9' then c as int - '0' as int
    else if 'a' <= c <= 'z' then c as int - 'a' as int + 10
    else 36
  }

  predicate IsDigit(c: char, radix: nat) {
    DigitValue(c) < radix
  }

  /** The digit character for `d`. */
  function Digit(d: nat): (c: char)
    requires d < 36
    ensures DigitValue(c) == d
  {
    if d < 10 then ('0' as int + d) as char else ('a' as int + d - 10) as char
  }

  /** `n.toString(radix)`: most significant digit first, no leading zero except for `0`. */
  function ToRadix(n: nat, radix: nat): (r: string)
    requires 2 <= radix <= 36
    ensures |r| >= 1
    ensures forall k :: 0 <= k < |r| ==> IsDigit(r[k], radix)
    ensures r[0] == '0' <==> n == 0
    decreases n
  {
    if n < radix then [Digit(n)]
    else
      DivisionShrinks(n, radix);
      ToRadix(n / radix, radix) + [Digit(n % radix)]
  }

  lemma {:induction false} DivisionShrinks(n: nat, radix: nat)
    requires 2 <= radix <= n
    ensures 0 < n / radix < n
    ensures n % radix < radix
    ensures n == n / radix * radix + n % radix
  {
  }

  /** The number a string of digits denotes. */
  function FromRadix(s: string, radix: nat): nat
    decreases |s|
  {
    if |s| == 0 then 0
    else FromRadix(s[..|s| - 1], radix) * radix + DigitValue(s[|s| - 1])
  }

  lemma {:induction false} RadixRoundTrip(n: nat, radix: nat)
    requires 2 <= radix <= 36
    ensures FromRadix(ToRadix(n, radix), radix) == n
    decreases n
  {
    if n >= radix {
      DivisionShrinks(n, radix);
      RadixRoundTrip(n / radix, radix);
      var r := ToRadix(n, radix);
      assert r[..|r| - 1] == ToRadix(n / radix, radix);
    }
  }

  /** `String(n)` for an integer. */
  function ShowInt(n: int): (r: string)
    ensures |r| >= 1
    ensures r[0] == '-' <==> n < 0
    ensures forall k :: (if n < 0 then 1 else 0) <= k < |r| ==> IsDigit(r[k], 10)
    ensures |r| > 1 && r[0] == '-' ==> r[1] != '0'
  {
    if n < 0 then "-" + ToRadix(-n, 10) else ToRadix(n, 10)
  }

  predicate IsDecimal(c: char) {
    IsDigit(c, 10)
  }

  /** The longest prefix of `s` made of decimal digits. */
  function LeadingDigits(s: string): string {
    s[..Seqs.PrefixWhile(IsDecimal, s)]
  }

  /** `parseInt(s, 10)`: leading whitespace, an optional sign, then as many decimal
      digits as follow; `None` stands for `NaN` (no digit at all). */
  function ParseInt(s: string): (r: Option<int>)
    ensures r.None? <==> |LeadingDigits(SignFree(TrimStart(s)))| == 0
    ensures r.Some? ==>
              var t := TrimStart(s);
              && (r.value < 0 ==> t[0] == '-')
              && (if |t| > 0 && t[0] == '-' then -r.value else r.value)
                 == FromRadix(LeadingDigits(SignFree(t)), 10)
  {
    var t := TrimStart(s);
    var digits := LeadingDigits(SignFree(t));
    if |digits| == 0 then None
    else
      var magnitude: int := FromRadix(digits, 10);
      if |t| > 0 && t[0] == '-' then Some(-magnitude) else Some(magnitude)
  }

  /** `s` without one leading `+` or `-`. */
  function SignFree(s: string): string {
    if |s| > 0 && (s[0] == '-' || s[0] == '+') then s[1..] else s
  }

  lemma {:induction false} AllDigitsAreLeading(s: string)
    requires forall k :: 0 <= k < |s| ==> IsDigit(s[k], 10)
    ensures LeadingDigits(s) == s
  {
    Seqs.PrefixWhileAll(IsDecimal, s);
  }

  /** `Number.MAX_SAFE_INTEGER`. An integer no larger in magnitude is held exactly by a
      JavaScript number, `String` prints it as plain decimal digits, and `parseInt` reads
      those digits back exactly. */
  const MaxSafeInteger: int := 9_007_199_254_740_991

  /** `parseInt` reads back exactly the integer `String` printed. */
  lemma {:induction false} ParseShowInt(n: int)
    requires -MaxSafeInteger <= n <= MaxSafeInteger
    ensures ParseInt(ShowInt(n)) == Some(n)
  {
    if n < 0 {
      var m: nat := -n;
      assert ShowInt(n) == "-" + ToRadix(m, 10);
      ParseNegativeDigits(m);
    } else {
      assert ShowInt(n) == ToRadix(n, 10);
      ParseDigits(n);
    }
  }

  lemma {:induction false} ParseDigits(m: nat)
    ensures ParseInt(ToRadix(m, 10)) == Some(m as int)
  {
    var digits := ToRadix(m, 10);
    RadixRoundTrip(m, 10);
    assert DigitValue(digits[0]) < 10;
    assert !IsWhitespace(digits[0]);
    assert TrimStart(digits) == digits;
    assert digits[0] != '-' && digits[0] != '+';
    assert SignFree(digits) == digits;
    AllDigitsAreLeading(digits);
  }

  lemma {:induction false} ParseNegativeDigits(m: nat)
    ensures ParseInt("-" + ToRadix(m, 10)) == Some(-(m as int))
  {
    var digits := ToRadix(m, 10);
    var shown := "-" + digits;
    RadixRoundTrip(m, 10);
    assert !IsWhitespace(shown[0]);
    assert TrimStart(shown) == shown;
    assert SignFree(shown) == digits;
    AllDigitsAreLeading(digits);
  }
}

=== FILE: repository.dfy ===
/** Operations on the recipe list that look recipes up by id. */
module Repository {
  import opened Wrappers
  import opened Model
  import Seqs

  /** `recipes.findIndex(r => r.id === id)`, with `None` for `-1`. */
  function IndexOfId(recipes: seq<Recipe>, id: string): (r: Option<nat>)
    ensures r.Some? ==> r.value < |recipes| && recipes[r.value].id == id
    ensures r.Some? ==> forall k :: 0 <= k < r.value ==> recipes[k].id != id
    ensures r.None? <==> forall k :: 0 <= k < |recipes| ==> recipes[k].id != id
    decreases |recipes|
  {
    if |recipes| == 0 then None
    else if recipes[0].id == id then Some(0)
    else
      match IndexOfId(recipes[1..], id)
      case None => None
      case Some(i) => Some(i + 1)
  }

  /** `recipes.find(r => r.id === id)`. */
  function FindById(recipes: seq<Recipe>, id: string): (r: Option<Recipe>)
    ensures r.None? <==> forall k :: 0 <= k < |recipes| ==> recipes[k].id != id
    ensures r.Some? ==> r.value in recipes && r.value.id == id
    ensures r.Some? ==> exists i :: 0 <= i < |recipes| && recipes[i] == r.value
                          && forall k :: 0 <= k < i ==> recipes[k].id != id
  {
    match IndexOfId(recipes, id)
    case None => None
    case Some(i) => Some(recipes[i])
  }

  /** The recipe the detail view shows: the first one carrying the selected id. */
  function CurrentRecipe(s: AppState): (r: Option<Recipe>)
    ensures r.Some? ==> s.currentRecipeId == Some(r.value.id) && r.value in s.recipes
    ensures r.None? <==> s.currentRecipeId.None?
                         || forall k :: 0 <= k < |s.recipes| ==> s.recipes[k].id != s.currentRecipeId.value
  {
    match s.currentRecipeId
    case None => None
    case Some(id) => FindById(s.recipes, id)
  }

  /** `recipes[0]?.id || null`: the fallback selection (an empty id counts as none). */
  function FirstId(recipes: seq<Recipe>): (r: Option<string>)
    ensures r.Some? <==> |recipes| > 0 && recipes[0].id != ""
    ensures r.Some? ==> r.value == recipes[0].id && FindById(recipes, r.value) == Some(recipes[0])
  {
    if |recipes| > 0 && recipes[0].id != "" then Some(recipes[0].id) else None
  }

  /** No two recipes share an id. */
  predicate IdsUnique(recipes: seq<Recipe>) {
    forall i, j :: 0 <= i < j < |recipes| ==> recipes[i].id != recipes[j].id
  }

  /** The save step of the form handler (app.js:600-617): overwrite the first recipe
      with the same id, or append when there is none. */
  function Upsert(recipes: seq<Recipe>, recipe: Recipe): (r: seq<Recipe>)
    ensures IndexOfId(recipes, recipe.id).Some? ==>
              var i := IndexOfId(recipes, recipe.id).value;
              |r| == |recipes| && r[i] == recipe
              && forall k :: 0 <= k < |r| && k != i ==> r[k] == recipes[k]
    ensures IndexOfId(recipes, recipe.id).None? ==>
              |r| == |recipes| + 1 && r[|recipes|] == recipe && r[..|recipes|] == recipes
  {
    match IndexOfId(recipes, recipe.id)
    case Some(i) => recipes[i := recipe]
    case None => recipes + [recipe]
  }

  /** Saving a recipe that is already stored, unchanged, under its id changes nothing. */
  lemma {:induction false} UpsertUnchanged(recipes: seq<Recipe>, recipe: Recipe)
    requires FindById(recipes, recipe.id) == Some(recipe)
    ensures Upsert(recipes, recipe) == recipes
  {
    var i := IndexOfId(recipes, recipe.id).value;
    assert recipes[i := recipe] == recipes;
  }

  /** After saving, looking the id up finds the saved recipe. */
  lemma {:induction false} UpsertThenFind(recipes: seq<Recipe>, recipe: Recipe)
    ensures FindById(Upsert(recipes, recipe), recipe.id) == Some(recipe)
  {
    var r := Upsert(recipes, recipe);
    match IndexOfId(recipes, recipe.id)
    case Some(i) =>
      assert IndexOfId(r, recipe.id) == Some(i);
    case None =>
      assert IndexOfId(r, recipe.id) == Some(|recipes|);
  }

  /** Saving the same recipe twice is the same as saving it once. */
  lemma {:induction false} UpsertIdempotent(recipes: seq<Recipe>, recipe: Recipe)
    ensures Upsert(Upsert(recipes, recipe), recipe) == Upsert(recipes, recipe)
  {
    var r := Upsert(recipes, recipe);
    match IndexOfId(recipes, recipe.id)
    case Some(i) =>
      assert IndexOfId(r, recipe.id) == Some(i);
    case None =>
      assert IndexOfId(r, recipe.id) == Some(|recipes|);
  }

  /** Saving never creates a second recipe with an id already in use. */
  lemma {:induction false} UpsertKeepsIdsUnique(recipes: seq<Recipe>, recipe: Recipe)
    requires IdsUnique(recipes)
    ensures IdsUnique(Upsert(recipes, recipe))
  {
  }

  /** `recipes.filter(r => r.id !== id)`: every copy of every other recipe stays. */
  function RemoveById(recipes: seq<Recipe>, id: string): (r: seq<Recipe>)
    ensures forall x :: x in r <==> x in recipes && x.id != id
    ensures forall k :: 0 <= k < |r| ==> r[k].id != id
    ensures forall x :: multiset(r)[x] == if x.id != id then multiset(recipes)[x] else 0
  {
    var keep := (x: Recipe) => x.id != id;
    Seqs.FilterMembers(keep, recipes);
    Seqs.FilterMultiset(keep, recipes);
    Seqs.Filter(keep, recipes)
  }

  /** Removing keeps the remaining recipes in their original order. */
  lemma {:induction false} RemoveKeepsOrder(recipes: seq<Recipe>, id: string)
    ensures Seqs.IsSubsequence(RemoveById(recipes, id), recipes)
  {
    Seqs.FilterIsSubsequence((x: Recipe) => x.id != id, recipes);
  }

  /** Removing an id nobody has changes nothing. */
  lemma {:induction false} RemoveAbsent(recipes: seq<Recipe>, id: string)
    requires IndexOfId(recipes, id).None?
    ensures RemoveById(recipes, id) == recipes
  {
    Seqs.FilterAllPass((x: Recipe) => x.id != id, recipes);
  }

  /** With unique ids, removing a present id shortens the list by exactly one. */
  lemma {:induction false} RemovePresentUnique(recipes: seq<Recipe>, id: string)
    requires IdsUnique(recipes)
    requires IndexOfId(recipes, id).Some?
    ensures |RemoveById(recipes, id)| == |recipes| - 1
    decreases |recipes|
  {
    var p := (x: Recipe) => x.id != id;
    assert recipes == [recipes[0]] + recipes[1..];
    Seqs.FilterAppend(p, [recipes[0]], recipes[1..]);
    if recipes[0].id == id {
      assert forall k :: 0 <= k < |recipes[1..]| ==> p(recipes[1..][k]);
      Seqs.FilterAllPass(p, recipes[1..]);
    } else {
      assert IdsUnique(recipes[1..]);
      RemovePresentUnique(recipes[1..], id);
    }
  }

  /** Removing keeps ids unique. */
  lemma {:induction false} RemoveKeepsIdsUnique(recipes: seq<Recipe>, id: string)
    requires IdsUnique(recipes)
    ensures IdsUnique(RemoveById(recipes, id))
  {
    RemoveKeepsOrder(recipes, id);
    UniqueAlongSubsequence(RemoveById(recipes, id), recipes);
  }

  lemma {:induction false} UniqueAlongSubsequence(a: seq<Recipe>, b: seq<Recipe>)
    requires Seqs.IsSubsequence(a, b)
    requires IdsUnique(b)
    ensures IdsUnique(a)
    decreases |b|
  {
    if |a| > 0 {
      assert IdsUnique(b[1..]);
      if a[0] == b[0] && Seqs.IsSubsequence(a[1..], b[1..]) {
        UniqueAlongSubsequence(a[1..], b[1..]);
        SubsequenceMembers(a[1..], b[1..]);
        forall i, j | 0 <= i < j < |a| ensures a[i].id != a[j].id {
          assert a[j] == a[1..][j - 1];
          if i == 0 {
            assert a[j] in a[1..];
            assert a[j] in b[1..];
            var m :| 0 <= m < |b[1..]| && b[1..][m] == a[j];
            assert b[m + 1] == a[j];
          } else {
            assert a[i] == a[1..][i - 1];
          }
        }
      } else {
        UniqueAlongSubsequence(a, b[1..]);
      }
    }
  }

  lemma {:induction false} SubsequenceMembers(a: seq<Recipe>, b: seq<Recipe>)
    requires Seqs.IsSubsequence(a, b)
    ensures forall x :: x in a ==> x in b
    decreases |b|
  {
    if |a| > 0 {
      if a[0] == b[0] && Seqs.IsSubsequence(a[1..], b[1..]) {
        SubsequenceMembers(a[1..], b[1..]);
        assert a == [a[0]] + a[1..];
      } else {
        SubsequenceMembers(a, b[1..]);
      }
    }
  }

  /** Removing one id does not change which recipe another id finds. */
  lemma {:induction false} RemoveKeepsOthersFound(recipes: seq<Recipe>, id: string, other: string)
    requires other != id
    ensures FindById(RemoveById(recipes, id), other) == FindById(recipes, other)
    decreases |recipes|
  {
    if |recipes| > 0 {
      var x := recipes[0];
      var tail := recipes[1..];
      RemoveKeepsOthersFound(tail, id, other);
      FindCons(x, tail, other);
      if x.id != id {
        assert RemoveById(recipes, id) == [x] + RemoveById(tail, id);
        FindCons(x, RemoveById(tail, id), other);
      } else {
        assert RemoveById(recipes, id) == RemoveById(tail, id);
      }
    }
  }

  /** Looking up an id in a list that starts with `x`. */
  lemma {:induction false} FindCons(x: Recipe, tail: seq<Recipe>, id: string)
    ensures FindById([x] + tail, id) == if x.id == id then Some(x) else FindById(tail, id)
  {
    assert ([x] + tail)[1..] == tail;
  }
}

=== FILE: search.dfy ===
/** The list filter `getFilteredRecipes` (app.js:192-210): category, favourites-only
    and a case-insensitive text search, all three required. */
module Search {
  import opened Model
  import opened Text
  import Seqs
  import Favourites

  /** `searchInputEl.value.trim().toLowerCase()`. */
  function SearchTerm(input: string): (term: string)
    ensures term == "" <==> Trim(input) == ""
  {
    Lower(Trim(input))
  }

  /** Some line, lower-cased, contains `term`. */
  predicate AnyContains(lines: seq<string>, term: string) {
    exists k :: 0 <= k < |lines| && Contains(Lower(lines[k]), term)
  }

  /** The text test of app.js:200-208: name, any tag, or any ingredient. */
  predicate MatchesText(r: Recipe, term: string) {
    || Contains(Lower(r.name), term)
    || AnyContains(r.TagList(), term)
    || AnyContains(r.ingredients, term)
  }

  /** app.js:195: no active category, or the recipe's own. */
  predicate PassesCategory(r: Recipe, category: string) {
    category == "" || r.category == category
  }

  /** app.js:196: the favourites-only switch is off, or the recipe is a favourite. */
  predicate PassesFavourites(r: Recipe, favouritesOnly: bool, favourites: seq<string>) {
    !favouritesOnly || Favourites.IsFavourite(favourites, r.id)
  }

  /** Whether the recipe list shows `r` for search term `term`. */
  predicate Visible(s: AppState, term: string, r: Recipe) {
    && PassesCategory(r, s.activeCategory)
    && PassesFavourites(r, s.showFavouritesOnly, s.favourites)
    && (term == "" || MatchesText(r, term))
  }

  /** `getFilteredRecipes()` with the search box's text passed in as `input`. */
  function FilteredRecipes(s: AppState, input: string): (r: seq<Recipe>)
    ensures |r| <= |s.recipes|
    ensures forall k :: 0 <= k < |r| ==>
              PassesCategory(r[k], s.activeCategory)
              && PassesFavourites(r[k], s.showFavouritesOnly, s.favourites)
    ensures forall x :: x in r <==> x in s.recipes && Visible(s, SearchTerm(input), x)
  {
    var visible := (x: Recipe) => Visible(s, SearchTerm(input), x);
    Seqs.FilterMembers(visible, s.recipes);
    Seqs.Filter(visible, s.recipes)
  }

  /** The visible recipes appear in list order, each with all its copies. */
  lemma {:induction false} FilterKeepsOrder(s: AppState, input: string)
    ensures Seqs.IsSubsequence(FilteredRecipes(s, input), s.recipes)
    ensures forall x :: multiset(FilteredRecipes(s, input))[x]
                     == if Visible(s, SearchTerm(input), x) then multiset(s.recipes)[x] else 0
  {
    var p := (x: Recipe) => Visible(s, SearchTerm(input), x);
    Seqs.FilterIsSubsequence(p, s.recipes);
    Seqs.FilterMultiset(p, s.recipes);
  }

  /** A blank search box hides nothing beyond the category and favourites tests. */
  lemma {:induction false} BlankSearchShowsAll(s: AppState, input: string)
    requires Trim(input) == ""
    ensures forall x :: x in FilteredRecipes(s, input) <==>
              && x in s.recipes
              && PassesCategory(x, s.activeCategory)
              && PassesFavourites(x, s.showFavouritesOnly, s.favourites)
  {
  }

  /** `term` occurs in `r`'s lower-cased name, in one of its tags or in one of its
      ingredients, stated by position. */
  ghost predicate TextOccurs(r: Recipe, term: string) {
    || (exists i :: OccursAt(Lower(r.name), term, i))
    || (exists k, i :: 0 <= k < |r.TagList()| && OccursAt(Lower(r.TagList()[k]), term, i))
    || (exists k, i :: 0 <= k < |r.ingredients| && OccursAt(Lower(r.ingredients[k]), term, i))
  }

  lemma {:induction false} MatchesTextIff(r: Recipe, term: string)
    ensures MatchesText(r, term) <==> TextOccurs(r, term)
  {
    ContainsIff(Lower(r.name), term);
    forall k | 0 <= k < |r.TagList()| {
      ContainsIff(Lower(r.TagList()[k]), term);
    }
    forall k | 0 <= k < |r.ingredients| {
      ContainsIff(Lower(r.ingredients[k]), term);
    }
  }

  /** With a non-blank search, a recipe is listed exactly when it passes the category
      and favourites tests and the lower-cased term occurs in its name, a tag or an ingredient. */
  lemma {:induction false} SearchIff(s: AppState, input: string, x: Recipe)
    requires Trim(input) != ""
    ensures x in FilteredRecipes(s, input) <==>
              && x in s.recipes
              && PassesCategory(x, s.activeCategory)
              && PassesFavourites(x, s.showFavouritesOnly, s.favourites)
              && TextOccurs(x, SearchTerm(input))
  {
    MatchesTextIff(x, SearchTerm(input));
  }

  /** Filtering the filtered list again with the same settings changes nothing. */
  lemma {:induction false} FilterIdempotent(s: AppState, input: string)
    ensures FilteredRecipes(s.(recipes := FilteredRecipes(s, input)), input) == FilteredRecipes(s, input)
  {
    var shown := FilteredRecipes(s, input);
    var t := s.(recipes := shown);
    forall k | 0 <= k < |shown| ensures Visible(t, SearchTerm(input), shown[k]) {
      assert shown[k] in shown;
    }
    Seqs.FilterAllPass((x: Recipe) => Visible(t, SearchTerm(input), x), shown);
  }
}

=== FILE: seqs.dfy ===
/** Generic sequence operations: `Array.prototype.filter` and the subsequence order it keeps. */
module Seqs {

  /** `a` can be obtained from `b` by deleting elements, keeping the rest in order. */
  ghost predicate IsSubsequence<T>(a: seq<T>, b: seq<T>)
    decreases |b|
  {
    || |a| == 0
    || (&& |b| > 0
        && ((a[0] == b[0] && IsSubsequence(a[1..], b[1..])) || IsSubsequence(a, b[1..])))
  }

  /** Every element of `s` occurs at most once. */
  predicate NoDuplicates<T(==)>(s: seq<T>) {
    forall i, j :: 0 <= i < j < |s| ==> s[i] != s[j]
  }

  /** `s.filter(p)`: the elements of `s` that satisfy `p`, in their original order. */
  function Filter<T>(p: T -> bool, s: seq<T>): (r: seq<T>)
    ensures |r| <= |s|
    ensures forall k :: 0 <= k < |r| ==> p(r[k])
    decreases |s|
  {
    if |s| == 0 then []
    else
      var rest := Filter(p, s[1..]);
      if p(s[0]) then [s[0]] + rest else rest
  }

  /** The filter keeps exactly the elements of `s` that satisfy `p`. */
  lemma {:induction false} FilterMembers<T(!new)>(p: T -> bool, s: seq<T>)
    ensures forall x :: x in Filter(p, s) <==> x in s && p(x)
    decreases |s|
  {
    if |s| > 0 {
      FilterMembers(p, s[1..]);
      assert s == [s[0]] + s[1..];
    }
  }

  /** When every element satisfies `p`, the filter keeps them all. */
  lemma {:induction false} FilterAllPass<T>(p: T -> bool, s: seq<T>)
    requires forall k :: 0 <= k < |s| ==> p(s[k])
    ensures Filter(p, s) == s
    decreases |s|
  {
    if |s| > 0 {
      FilterAllPass(p, s[1..]);
      assert s == [s[0]] + s[1..];
    }
  }

  /** The filter keeps the elements it keeps in their original order. */
  lemma {:induction false} FilterIsSubsequence<T(!new)>(p: T -> bool, s: seq<T>)
    ensures IsSubsequence(Filter(p, s), s)
    decreases |s|
  {
    if |s| > 0 {
      FilterIsSubsequence(p, s[1..]);
      var rest := Filter(p, s[1..]);
      if p(s[0]) {
        assert ([s[0]] + rest)[1..] == rest;
      } else {
        assert |rest| > 0 ==> rest[0] != s[0];
      }
    }
  }

  /** The filter keeps every copy of the elements that pass and no copy of the others. */
  lemma {:induction false} FilterMultiset<T(!new)>(p: T -> bool, s: seq<T>)
    ensures forall x :: multiset(Filter(p, s))[x] == if p(x) then multiset(s)[x] else 0
    decreases |s|
  {
    if |s| > 0 {
      FilterMultiset(p, s[1..]);
      assert s == [s[0]] + s[1..];
      assert multiset(s) == multiset{s[0]} + multiset(s[1..]);
    }
  }

  /** Filtering distributes over concatenation. */
  lemma {:induction false} FilterAppend<T(!new)>(p: T -> bool, a: seq<T>, b: seq<T>)
    ensures Filter(p, a + b) == Filter(p, a) + Filter(p, b)
    decreases |a|
  {
    if |a| == 0 {
      assert a + b == b;
    } else {
      assert (a + b)[1..] == a[1..] + b;
      FilterAppend(p, a[1..], b);
    }
  }

  /** Filtering a list without duplicates gives a list without duplicates. */
  lemma {:induction false} FilterKeepsNoDuplicates<T(!new)>(p: T -> bool, s: seq<T>)
    requires NoDuplicates(s)
    ensures NoDuplicates(Filter(p, s))
    decreases |s|
  {
    if |s| > 0 {
      assert NoDuplicates(s[1..]) by {
        forall i, j | 0 <= i < j < |s[1..]|
          ensures s[1..][i] != s[1..][j]
        {
          assert s[1..][i] == s[i + 1] && s[1..][j] == s[j + 1];
        }
      }
      FilterKeepsNoDuplicates(p, s[1..]);
      FilterMembers(p, s[1..]);
      assert s[0] !in s[1..];
    }
  }

  /** A non-empty sequence is its head followed by its tail. */
  lemma {:induction false} HeadTail<T>(s: seq<T>)
    requires |s| > 0
    ensures [s[0]] + s[1..] == s
  {
  }

  /** A sequence is its prefix up to `i` followed by the rest. */
  lemma {:induction false} SplitAt<T>(s: seq<T>, i: nat)
    requires i <= |s|
    ensures s == s[..i] + s[i..]
  {
  }

  /** The length of the longest prefix of `s` whose elements all satisfy `p`. */
  function PrefixWhile<T>(p: T -> bool, s: seq<T>): (n: nat)
    ensures n <= |s|
    ensures forall k :: 0 <= k < n ==> p(s[k])
    ensures n == |s| || !p(s[n])
    decreases |s|
  {
    if |s| > 0 && p(s[0]) then 1 + PrefixWhile(p, s[1..]) else 0
  }

  /** Where the longest suffix of `s` whose elements all satisfy `p` begins. */
  function SuffixWhile<T>(p: T -> bool, s: seq<T>): (n: nat)
    ensures n <= |s|
    ensures forall k :: n <= k < |s| ==> p(s[k])
    ensures n == 0 || !p(s[n - 1])
    decreases |s|
  {
    if |s| > 0 && p(s[|s| - 1]) then SuffixWhile(p, s[..|s| - 1]) else |s|
  }

  /** The run at the front of `s + t` stops inside `s` when `s` has an element that fails `p`,
      and otherwise continues into `t`. */
  lemma {:induction false} PrefixWhileAppend<T>(p: T -> bool, s: seq<T>, t: seq<T>)
    ensures PrefixWhile(p, s + t)
         == if PrefixWhile(p, s) < |s| then PrefixWhile(p, s) else |s| + PrefixWhile(p, t)
    decreases |s|
  {
    if |s| == 0 {
      assert s + t == t;
    } else {
      assert (s + t)[1..] == s[1..] + t;
      PrefixWhileAppend(p, s[1..], t);
    }
  }

  /** A run at the back of `t` that stops inside `t` is the run at the back of `s + t`. */
  lemma {:induction false} SuffixWhileAppend<T>(p: T -> bool, s: seq<T>, t: seq<T>)
    requires SuffixWhile(p, t) > 0
    ensures SuffixWhile(p, s + t) == |s| + SuffixWhile(p, t)
    decreases |t|
  {
    var st := s + t;
    if p(t[|t| - 1]) {
      assert st[..|st| - 1] == s + t[..|t| - 1];
      SuffixWhileAppend(p, s, t[..|t| - 1]);
    }
  }

  /** The run at the front stops inside `s` when the last element fails `p`. */
  lemma {:induction false} PrefixWhileStops<T>(p: T -> bool, s: seq<T>)
    requires |s| > 0 && !p(s[|s| - 1])
    ensures PrefixWhile(p, s) < |s|
  {
  }

  /** The run at the back starts after the first element when that element fails `p`. */
  lemma {:induction false} SuffixWhileStops<T>(p: T -> bool, s: seq<T>)
    requires |s| > 0 && !p(s[0])
    ensures SuffixWhile(p, s) > 0
  {
  }

  lemma {:induction false} PrefixWhileAll<T>(p: T -> bool, s: seq<T>)
    requires forall k :: 0 <= k < |s| ==> p(s[k])
    ensures PrefixWhile(p, s) == |s|
    decreases |s|
  {
    if |s| > 0 {
      PrefixWhileAll(p, s[1..]);
    }
  }
}

=== FILE: storage.dfy ===
/** Start-up: `loadRecipes`, `loadFavourites` (app.js:86-111) and the initial state
    (app.js:117-127). Reading local storage and `JSON.parse` are outside the model;
    their outcome is an input. */
module Storage {
  import opened Wrappers
  import opened Model
  import opened Text
  import Repository
  import Favourites

  /** A value `JSON.parse` can return, as far as the loaders look at it: `null`, a
      string, an array, or anything else (a number, a boolean, an object). */
  datatype Json<T> = JNull | JText(text: string) | JArray(items: seq<T>) | JOther

  /** What reading one storage key and parsing it as JSON gave: nothing (no entry or
      an empty string), a parse error, or a parsed value. */
  datatype Stored<T> = Missing | Unparsable | Parsed(value: Json<T>)

  /** The three starter recipes of app.js:7-84 (their ingredients, steps and notes are
      not part of the model). */
  const DefaultRecipes: seq<Recipe> := [
    Recipe("nanas-roast", "Nana's Sunday Roast", "Dinner", "2 hours", 4,
           Some(["family classic", "comfort"]), [], [], ""),
    Recipe("choc-brownies", "Gooey Chocolate Brownies", "Dessert", "35 minutes", 12,
           Some(["chocolate", "baking"]), [], [], ""),
    Recipe("overnight-oats", "Overnight Oats", "Breakfast", "10 minutes prep + overnight", 1,
           Some(["healthy", "quick"]), [], [], "")
  ]

  /** `loadRecipes()`: the stored array when it is a non-empty array, the starter
      recipes in every other case, so the app never starts with no recipe. */
  function LoadRecipes(stored: Stored<Recipe>): (r: seq<Recipe>)
    ensures |r| > 0
    ensures stored.Parsed? && stored.value.JArray? && |stored.value.items| > 0 ==> r == stored.value.items
    ensures !(stored.Parsed? && stored.value.JArray? && |stored.value.items| > 0) ==> r == DefaultRecipes
  {
    match stored
    case Parsed(JArray(items)) => if |items| == 0 then DefaultRecipes else items
    case _ => DefaultRecipes
  }

  /** `loadFavourites()` as written: `[]` when nothing is stored or the text does not
      parse, and otherwise whatever value `JSON.parse` gave, array or not. */
  function LoadFavouritesAsWritten(stored: Stored<string>): (v: Json<string>)
    ensures stored.Missing? || stored.Unparsable? ==> v == JArray([])
    ensures stored.Parsed? ==> v == stored.value
  {
    match stored
    case Missing => JArray([])
    case Unparsable => JArray([])
    case Parsed(value) => value
  }

  /** `favourites.includes(id)` (app.js:173-175) on the value the loader kept: array
      membership for an array, a substring test for a string, and a `TypeError`
      (`None`) for `null` and every other value, which the first render of the list
      (app.js:242) runs into. */
  function IsFavouriteAsWritten(favourites: Json<string>, id: string): (r: Option<bool>)
    ensures r.None? <==> !favourites.JArray? && !favourites.JText?
    ensures favourites.JArray? ==> r == Some(id in favourites.items)
    ensures favourites.JText? ==> r == Some(exists i :: OccursAt(favourites.text, id, i))
  {
    match favourites
    case JArray(items) => Some(id in items)
    case JText(text) => ContainsIff(text, id); Some(Contains(text, id))
    case _ => None
  }

  /** Stored favourites that parse to `null`, a number, a boolean or an object make
      every favourite lookup fail, where the guarded loader reads them as no favourites. */
  lemma {:induction false} NonArrayFavouritesBreakLookup(value: Json<string>, id: string)
    requires !value.JArray? && !value.JText?
    ensures IsFavouriteAsWritten(LoadFavouritesAsWritten(Parsed(value)), id).None?
    ensures LoadFavourites(Parsed(value)) == []
  {
  }

  /** Stored favourites that parse to the string `"abc"` make `"b"` a favourite, although
      no such id was ever starred; the guarded loader reads them as no favourites. */
  lemma {:induction false} TextFavouritesMatchSubstrings()
    ensures IsFavouriteAsWritten(LoadFavouritesAsWritten(Parsed(JText("abc"))), "b") == Some(true)
    ensures !Favourites.IsFavourite(LoadFavourites(Parsed(JText("abc"))), "b")
  {
    assert OccursAt("abc", "b", 1);
  }

  /** `loadFavourites()` with the same guard as `loadRecipes`: anything but an array
      reads as no favourites. */
  function LoadFavourites(stored: Stored<string>): (r: seq<string>)
    ensures stored.Parsed? && stored.value.JArray? ==> r == stored.value.items
    ensures !(stored.Parsed? && stored.value.JArray?) ==> r == []
  {
    match stored
    case Parsed(JArray(items)) => items
    case _ => []
  }

  /** Wherever the original loader yields an array, the guarded one yields the same
      list, and every favourite lookup gives the same answer. */
  lemma {:induction false} LoadFavouritesAgrees(stored: Stored<string>, id: string)
    ensures LoadFavouritesAsWritten(stored).JArray? ==>
              && LoadFavourites(stored) == LoadFavouritesAsWritten(stored).items
              && IsFavouriteAsWritten(LoadFavouritesAsWritten(stored), id)
                 == Some(Favourites.IsFavourite(LoadFavourites(stored), id))
  {
  }

  /** The state app.js:117-127 starts from. */
  function InitialState(recipes: Stored<Recipe>, favourites: Stored<string>): (s: AppState)
    ensures s.recipes == LoadRecipes(recipes) && |s.recipes| > 0
    ensures s.favourites == LoadFavourites(favourites)
    ensures s.currentRecipeId == Repository.FirstId(s.recipes)
    ensures s.currentRecipeId.Some? ==> Repository.CurrentRecipe(s) == Some(s.recipes[0])
    ensures s.activeCategory == "" && !s.showFavouritesOnly && s.cookMode == Stopped
  {
    var loaded := LoadRecipes(recipes);
    AppState(loaded, LoadFavourites(favourites), Repository.FirstId(loaded), "", false, Stopped)
  }
}

=== FILE: text.dfy ===
/** ASCII models of the JavaScript string primitives the app relies on:
    `toLowerCase`, `trim`, `includes`, `split` on one character and `join`. */
module Text {
  import Seqs

  /** The whitespace `String.prototype.trim` removes, restricted to ASCII. */
  predicate IsWhitespace(c: char) {
    c == ' ' || c == '\t' || c == '\n' || c == '\r' || c == '\U{000B}' || c == '\U{000C}'
  }

  predicate AllWhitespace(s: string) {
    forall k :: 0 <= k < |s| ==> IsWhitespace(s[k])
  }

  /** No whitespace at either end. */
  predicate IsTrimmed(s: string) {
    |s| == 0 || (!IsWhitespace(s[0]) && !IsWhitespace(s[|s| - 1]))
  }

  function LowerChar(c: char): (r: char)
    ensures 'A' <= c <= 'Z' ==> r != c && 'a' <= r <= 'z'
    ensures !('A' <= c <= 'Z') ==> r == c
  {
    if 'A' <= c <= 'Z' then (c as int + 32) as char else c
  }

  /** `s.toLowerCase()` on ASCII letters; every other character is kept. */
  function Lower(s: string): (r: string)
    ensures |r| == |s|
    ensures forall k :: 0 <= k < |s| ==> r[k] == LowerChar(s[k])
  {
    seq(|s|, k requires 0 <= k < |s| => LowerChar(s[k]))
  }

  /** The length of the whitespace run at the front of `s`. */
  function LeadingSpace(s: string): nat {
    Seqs.PrefixWhile(IsWhitespace, s)
  }

  /** Where the whitespace run at the end of `s` begins. */
  function TrailingSpace(s: string): nat {
    Seqs.SuffixWhile(IsWhitespace, s)
  }

  /** Removes leading whitespace. */
  function TrimStart(s: string): (r: string)
    ensures |r| <= |s| && r == s[|s| - |r|..]
    ensures forall k :: 0 <= k < |s| - |r| ==> IsWhitespace(s[k])
    ensures |r| == 0 || !IsWhitespace(r[0])
  {
    s[LeadingSpace(s)..]
  }

  /** `s` is `w1 + r + w2` for whitespace `w1` (of length `i`) and `w2`. */
  ghost predicate IsTrimSplit(s: string, r: string, i: int) {
    && 0 <= i <= |s| - |r|
    && (forall k :: 0 <= k < |r| ==> r[k] == s[i + k])
    && (forall k :: 0 <= k < i ==> IsWhitespace(s[k]))
    && (forall k :: i + |r| <= k < |s| ==> IsWhitespace(s[k]))
  }

  /** `s.trim()`: the result is an infix of `s`, only whitespace is cut away,
      and nothing is cut from a string that is already trimmed. */
  function Trim(s: string): (r: string)
    ensures IsTrimmed(r)
    ensures exists i :: IsTrimSplit(s, r, i)
    ensures IsTrimmed(s) ==> r == s
  {
    var i := LeadingSpace(s);
    var j := i + TrailingSpace(s[i..]);
    TrimSplitAt(s, i, j);
    s[i..j]
  }

  lemma {:induction false} TrimSplitAt(s: string, i: nat, j: nat)
    requires i == LeadingSpace(s) && j == i + TrailingSpace(s[i..])
    ensures j <= |s|
    ensures IsTrimSplit(s, s[i..j], i)
    ensures IsTrimmed(s[i..j])
    ensures IsTrimmed(s) ==> s[i..j] == s
  {
    var t := s[i..];
    forall k | j <= k < |s| ensures IsWhitespace(s[k]) {
      assert t[k - i] == s[k];
    }
    if j > i {
      assert s[i..j][0] == s[i];
      assert s[i..j][j - i - 1] == t[j - i - 1];
    }
  }

  lemma {:induction false} TrimmedInfixHasNo(s: string, c: char)
    requires c !in s
    ensures c !in Trim(s)
  {
    var r := Trim(s);
    var i :| IsTrimSplit(s, r, i);
    forall k | 0 <= k < |r| ensures r[k] != c {
      assert r[k] == s[i + k];
    }
  }

  /** Whitespace in front of a trimmed string is all `trim` removes. */
  lemma {:induction false} TrimAfterWhitespace(w: string, p: string)
    requires AllWhitespace(w) && IsTrimmed(p)
    ensures Trim(w + p) == p
  {
    LeadingSpacePrefix(w, p);
    assert (w + p)[|w|..] == p;
    assert (w + p)[|w|..|w| + |p|] == p;
  }

  lemma {:induction false} LeadingSpacePrefix(w: string, p: string)
    requires AllWhitespace(w) && (|p| == 0 || !IsWhitespace(p[0]))
    ensures LeadingSpace(w + p) == |w|
    decreases |w|
  {
    if |w| == 0 {
      assert w + p == p;
    } else {
      assert (w + p)[1..] == w[1..] + p;
      LeadingSpacePrefix(w[1..], p);
    }
  }

  /** `needle` occurs in `hay` at position `i`. */
  ghost predicate OccursAt(hay: string, needle: string, i: int) {
    0 <= i && i + |needle| <= |hay| && hay[i..i + |needle|] == needle
  }

  predicate StartsWith(s: string, prefix: string) {
    |prefix| <= |s| && s[..|prefix|] == prefix
  }

  /** `hay.includes(needle)`, by scanning every start position. */
  predicate Contains(hay: string, needle: string)
    decreases |hay|
  {
    StartsWith(hay, needle) || (|hay| > 0 && Contains(hay[1..], needle))
  }

  /** The scan agrees with the positional definition of a substring. */
  lemma {:induction false} ContainsIff(hay: string, needle: string)
    ensures Contains(hay, needle) <==> exists i :: OccursAt(hay, needle, i)
    decreases |hay|
  {
    if StartsWith(hay, needle) {
      assert OccursAt(hay, needle, 0);
    } else if |hay| == 0 {
      assert |needle| > 0;
    } else {
      ContainsIff(hay[1..], needle);
      forall i | OccursAt(hay[1..], needle, i) ensures OccursAt(hay, needle, i + 1) {
        assert hay[1..][i..i + |needle|] == hay[i + 1..i + 1 + |needle|];
      }
      assert !OccursAt(hay, needle, 0) by {
        assert |needle| <= |hay| ==> hay[0..|needle|] == hay[..|needle|];
      }
      forall i | OccursAt(hay, needle, i) ensures i >= 1 && OccursAt(hay[1..], needle, i - 1) {
        assert hay[1..][i - 1..i - 1 + |needle|] == hay[i..i + |needle|];
      }
    }
  }

  /** `s.split(sep)` for a one-character separator: always at least one part,
      and no part contains the separator. */
  function Split(s: string, sep: char): (parts: seq<string>)
    ensures |parts| >= 1
    ensures forall k :: 0 <= k < |parts| ==> sep !in parts[k]
    decreases |s|
  {
    if |s| == 0 then [""]
    else
      var rest := Split(s[1..], sep);
      if s[0] == sep then [""] + rest
      else [[s[0]] + rest[0]] + rest[1..]
  }

  /** `parts.join(sep)`. */
  function Join(parts: seq<string>, sep: string): (r: string)
    ensures |parts| > 0 ==> StartsWith(r, parts[0])
    decreases |parts|
  {
    if |parts| == 0 then ""
    else if |parts| == 1 then parts[0]
    else parts[0] + sep + Join(parts[1..], sep)
  }

  /** Joining the parts of a split with the same separator gives back the text. */
  lemma {:induction false} JoinSplit(s: string, sep: char)
    ensures Join(Split(s, sep), [sep]) == s
    decreases |s|
  {
    if |s| > 0 {
      var rest := Split(s[1..], sep);
      JoinSplit(s[1..], sep);
      if s[0] == sep {
        assert Split(s, sep)[1..] == rest;
      } else {
        var parts := Split(s, sep);
        if |rest| == 1 {
          assert parts == [[s[0]] + rest[0]];
        } else {
          assert parts[1..] == rest[1..];
          assert Join(rest, [sep]) == rest[0] + [sep] + Join(rest[1..], [sep]);
        }
      }
    }
  }

  /** Splitting a text without the separator gives the text back whole. */
  lemma {:induction false} SplitWithout(s: string, sep: char)
    requires sep !in s
    ensures Split(s, sep) == [s]
    decreases |s|
  {
    if |s| > 0 {
      SplitWithout(s[1..], sep);
      assert [s[0]] + s[1..] == s;
    }
  }

  /** A separator ends the first part of a split. */
  lemma {:induction false} SplitAtSeparator(a: string, b: string, sep: char)
    requires sep !in a
    ensures Split(a + [sep] + b, sep) == [a] + Split(b, sep)
    decreases |a|
  {
    if |a| == 0 {
      assert a + [sep] + b == [sep] + b;
      assert ([sep] + b)[1..] == b;
    } else {
      assert (a + [sep] + b)[1..] == a[1..] + [sep] + b;
      SplitAtSeparator(a[1..], b, sep);
      assert [a[0]] + a[1..] == a;
    }
  }
}

=== FILE: wrappers.dfy ===
/** Optional values: the model's stand-in for JavaScript's `null` / `undefined`. */
module Wrappers {

  datatype Option<+T> = None | Some(value: T) {

    /** The value if there is one, otherwise `default`. */
    function GetOr(default: T): T {
      match this
      case Some(v) => v
      case None => default
    }
  }
}
